=== FILE: README.md ===
# FlexyArt core, modelled in Dafny

FlexyArt is a marketplace for Steam profile artwork. The site runs on Cloudflare Pages. This project models two parts of it as pure Dafny functions and proves properties about them.

**Steam sign-in.** This is the OpenID Authentication 2.0 relying party.
- `functions/api/auth/steam.ts` builds the `checkid_setup` redirect with `identifier_select` (sections 9 and 9.1 of OpenID Authentication 2.0).
- `functions/api/auth/callback.ts` handles the return in order:
  1. It re-posts the assertion as `check_authentication` (section 11.4.2) and accepts only a reply containing `is_valid:true`.
  2. It extracts the numeric Steam id from `openid.claimed_id`.
  3. It looks up the user, or creates the user from the Steam profile.
  4. It signs a seven-day session token and redirects home with the session cookie.

The handler is a function from the callback's query, the configuration, the users table (`map<string, User>` keyed by Steam id) and the outside world:
- the provider's reply;
- the player-summary call;
- the token signer;
- the clock that stamps the token's issue time.

It returns the response, the new table, and the ordered list of outside calls it made, the signer call included. That list is what lets the contracts say which side effects happen before which error.

**Client rules lifted out of React components.** Each one is a pure function over a small state record:
- creator tiers and the level progress bar (`real` arithmetic, which is exact);
- the fancy-text styles, over UTF-16 code units;
- the theme manager's colour, tag, search and submit handlers;
- the upload form's gates;
- the admin moderation queue, tab switch and user search;
- the navigation bar's notifications and session;
- the three Steam profile simulators: zoom, level colours, uploads, background switch and crop rectangles;
- the Themes page category filter.

The cropper's comments estimate a 10 px gap between the main and side panels, but the code offsets the side crop by 13 px (src/components/AdvancedCropper.tsx:160). The model follows the code.

Shared helpers:
- `Options`: the optional value.
- `Seqs`: the order-preserving filter, counting and the subsequence relation.
- `Strings`: the JavaScript string operations used, namely `includes`, `endsWith`, ASCII `toLowerCase`, `trim`, `split`/`join` and number-to-decimal.
- `UrlQuery`: `URLSearchParams` as an ordered list of pairs.
- `Files`: a chosen file's name and MIME type.
- `TagList`: the tag editor shared by two forms.
- `ProfilePreview`: the rules shared by the simulators.

## Model

| member | source | states |
|---|---|---|
| SteamLogin.BeginLogin | functions/api/auth/steam.ts:5-20 | a 302 to the Steam login endpoint carrying exactly six parameters; ns is OpenID 2.0 and mode is `checkid_setup`; identity and claimed_id are `identifier_select`; realm is the request origin verbatim; return_to is origin + `/api/auth/callback`, so the realm is a prefix of return_to |
| SteamCallback.VerificationQuery | functions/api/auth/callback.ts:10-14 | the verification body keeps every callback pair other than `openid.mode` in order and holds exactly one `openid.mode`, equal to `check_authentication` |
| SteamCallback.HandleCallback | functions/api/auth/callback.ts:20-30 | the verification POST is always the first call; the response is 401 iff the reply lacks `is_valid:true`; on 401 nothing else is called and the table is unchanged; otherwise the result is the post-verification step's result, whatever `claimed_id` holds; the signer is called iff the sign-in succeeds |
| SteamCallback.ClaimedSteamId | functions/api/auth/callback.ts:33-42 | an extracted id is a non-empty all-digit string taken from a present `openid.claimed_id` |
| SteamCallback.SteamIdOf | functions/api/auth/callback.ts:38-42 | the unanchored pattern yields an id iff it matches somewhere, and the id is the capture of the leftmost match: the prefix followed by the id occurs there, no match starts earlier, and the digit run is maximal |
| SteamCallback.SteamIdOfIffLeftmostCapture | functions/api/auth/callback.ts:38-42 | the extracted id equals `id` exactly when `id` is the leftmost capture |
| SteamCallback.LeftmostCaptureUnique | functions/api/auth/callback.ts:38-42 | the leftmost match's position and its capture are unique |
| SteamCallback.ResolveUser | functions/api/auth/callback.ts:45-76 | an existing row is reused untouched after one lookup; a new row is stored under the id only after lookup, profile fetch and insert; failure is a 500 and occurs iff the user is new and the API key is missing, the player is missing, or the insert returns nothing; a missing key stops right after the lookup |
| SteamCallback.AfterVerification | functions/api/auth/callback.ts:32-101 | 400 iff no id is extracted, with no calls made; a returning user gets no fetch and no insert; the table changes only by one new row under the extracted id and stays keyed by Steam id; the missing-key 500 happens iff the user is new; a missing `JWT_SECRET` is reported after the insert; success is a redirect home with the cookie for the stored user; it is the user resolution followed by the session step over the table resolution produced, a failed resolution being returned with the table untouched; sign-in succeeds iff an id is extracted, the user is resolved and the secret is set; the signer is called iff the sign-in succeeds, as the last call, over the stored user's claims at the clock; every 500 other than the missing secret leaves the table unchanged |
| SteamCallback.IssueSession | functions/api/auth/callback.ts:79-101 | with the secret set, a 302 to `/` carrying the cookie for the signed claims; otherwise 500 `Missing JWT_SECRET` |
| SteamCallback.SessionEffects | functions/api/auth/callback.ts:79-88 | the session step calls the signer once, over the user's claims at the clock, exactly when `JWT_SECRET` is set, and not at all otherwise |
| SteamCallback.SignsLastOnSuccess | functions/api/auth/callback.ts:79-88 | after a lookup-and-insert sequence that signs nothing, the signer is called iff the session step redirects, and it is then the last call |
| SteamCallback.SessionClaims | functions/api/auth/callback.ts:84-88 | `sub` is the decimal rendering of the user id (digits that parse back to the id); `steam_id` is the stored Steam id; `iat` is the clock at signing and `exp` is 604800 seconds (seven days) later |
| SteamCallback.ClaimsFollowClock | functions/api/auth/callback.ts:86-87 | claims for the same user signed at two times are equal iff the times are equal |
| SteamCallback.SessionCookie | functions/api/auth/callback.ts:91-96 | the cookie is `session=<token>; HttpOnly; Secure; SameSite=Lax; Path=/; Max-Age=604800` |
| SteamCallback.RepeatLoginReusesUser | functions/api/auth/callback.ts:45-47 | replaying a successful login at any time t, against the table it produced, finds the stored row; it inserts nothing, leaves the table unchanged, and redirects home with a cookie for the same user's claims issued at t; the response equals the first one only when the clock reads the same |
| CreatorBadge.CreatorLevel | src/components/CreatorBadge.tsx:9-16 | no tier iff revenue < 50; the tier level equals the number of tier starts reached, with the band's name |
| CreatorBadge.CreatorLevelMonotone | src/components/CreatorBadge.tsx:9-16 | more revenue never lowers the level, with no tier counted as 0 |
| CreatorBadge.CreatorLevelBands | src/components/CreatorBadge.tsx:10-14 | [50,250) is 1, [250,1000) is 2, [1000,1500) is 3, [1500,2500) is 4, and 2500 or more is 5 |
| CreatorBadge.NextLevel | src/components/CreatorBadge.tsx:18-25 | no next tier iff revenue ≥ 2500; otherwise the next level is the current level plus one, its threshold exceeds the revenue and is that tier's start, and the tier at the threshold has that level and name |
| CreatorBadge.BadgeFor | src/components/CreatorBadge.tsx:27-45 | nothing is drawn iff there is no tier; the legend style applies iff revenue ≥ 2500 (level 5) |
| CreatorStudio.PrevThresholdIsTierStart | src/pages/CreatorStudio.tsx:158-162 | while a next tier exists, the previous threshold is the current tier's start (50, 250, 1000 or 1500), or 0 with no tier |
| CreatorStudio.Progress | src/pages/CreatorStudio.tsx:155-169 | progress lies in [0,100]; it is 100 iff there is no next tier; for non-negative revenue it is the unclamped share of the band covered |
| CreatorStudio.ProgressBandWellFormed | src/pages/CreatorStudio.tsx:158-166 | the band width is positive, and a non-negative revenue is at least the previous threshold |
| CreatorStudio.RemainingToNext | src/pages/CreatorStudio.tsx:195 | the amount still to earn exists iff a next tier does; it is positive and reaches the threshold exactly |
| CreatorStudio.StatusBadgeFor | src/pages/CreatorStudio.tsx:324-355 | Live, Pending and Rejected each get their own badge and every other status gets none; a tooltip appears only on Rejected with a non-empty reason, and shows that reason |
| FancyText.Image | src/pages/Tools.tsx:465-495 | an ASCII letter becomes the UTF-16 encoding of its table code point, which contains no ASCII letter; every other code unit is kept |
| FancyText.Transform | src/pages/Tools.tsx:465-495 | the output has between n and 2n code units and contains no ASCII letter |
| FancyText.TransformAppend | src/pages/Tools.tsx:470 | the transform of a concatenation is the concatenation of the transforms |
| FancyText.TransformAt | src/pages/Tools.tsx:470 | the output is the images of the input's code units joined in order |
| FancyText.TransformFixesLetterFree | src/pages/Tools.tsx:467-494 | text without ASCII letters is left unchanged |
| FancyText.TransformIdempotent | src/pages/Tools.tsx:465-495 | applying a table style twice is the same as applying it once |
| FancyText.BubblesKeepsLength | src/pages/Tools.tsx:489-495 | the bubble style keeps the code-unit length |
| FancyText.AstralTableLength | src/pages/Tools.tsx:465-487 | bold sans and monospace add one code unit per ASCII letter |
| FancyText.SmallCapsUnit | src/pages/Tools.tsx:497-501 | a letter maps to the small-caps entry of its lower-case form and any other code unit is unchanged; the only ASCII letters produced are `s` and `x` |
| FancyText.SmallCaps | src/pages/Tools.tsx:497-502 | the output has the input's length and is the small-caps image of each unit |
| FancyText.SmallCapsCaseInsensitive | src/pages/Tools.tsx:501 | lower-casing the input first changes nothing; `S` and `s` both give `s`, and `X` and `x` both give `x` |
| FancyText.SmallCapsLetters | src/pages/Tools.tsx:499-501 | an ASCII letter in the output came from an `s` or an `x` in either case |
| FancyText.Wide | src/pages/Tools.tsx:510 | empty gives empty; n ≥ 1 units give 2n−1 with the input at even indices and spaces at odd ones |
| FancyText.WideRoundTrip | src/pages/Tools.tsx:510 | taking every other unit of the wide text recovers the input |
| FancyText.Squares | src/pages/Tools.tsx:511 | each unit c becomes `[c]`, for length 3n |
| FancyText.SquaresRoundTrip | src/pages/Tools.tsx:511 | the middle unit of each bracket triple recovers the input |
| FancyText.UpsideDown | src/pages/Tools.tsx:512 | the output is the input reversed, unit by unit |
| FancyText.UpsideDownInvolution | src/pages/Tools.tsx:512 | reversing twice gives the input back |
| TagList.OnKey | src/components/admin/ThemeManager.tsx:92-100 | Enter with a non-blank input appends the trimmed input iff it is absent and clears the box; any other key or a blank input changes nothing; duplicate-free, trimmed, non-empty tags stay so |
| TagList.Remove | src/components/admin/ThemeManager.tsx:102-107 | exactly the given tag disappears and every other tag is kept, in order and with multiplicity; well-formed lists stay well formed |
| TagList.AddThenRemove | src/components/admin/ThemeManager.tsx:92-107 | adding a new tag and then removing it restores the list |
| ThemeManager.ToggleColor | src/components/admin/ThemeManager.tsx:83-90 | a selected colour is removed (every occurrence) and nothing else is; an unselected one is appended at the end, with no cap on the count; membership flips |
| ThemeManager.ToggleTwiceRestores | src/components/admin/ThemeManager.tsx:83-90 | selecting an unselected colour and clicking it again restores the selection |
| ThemeManager.TagKeyDown | src/components/admin/ThemeManager.tsx:92-100 | the key press changes only the form's tags and the tag box, as the tag editor rule says |
| ThemeManager.RemoveTag | src/components/admin/ThemeManager.tsx:102-107 | only the form's tags change, by removing that tag |
| ThemeManager.FilteredThemes | src/components/admin/ThemeManager.tsx:154 | a theme is kept iff its lower-cased title or game contains the lower-cased query; the result is an order-preserving subsequence whose length is the number of matching themes, so repeated themes keep every copy |
| ThemeManager.EmptySearchKeepsAll | src/components/admin/ThemeManager.tsx:154 | an empty query keeps every theme in order |
| ThemeManager.SearchIgnoresQueryCase | src/components/admin/ThemeManager.tsx:154 | the search result does not depend on the query's ASCII case |
| ThemeManager.NewTheme | src/components/admin/ThemeManager.tsx:129-137 | the new theme copies title, game, price and type from the form and is Active; its preview is the default picture iff no usable preview URL was chosen (or the chosen one is that picture) |
| ThemeManager.Submit | src/components/admin/ThemeManager.tsx:129-148 | one new theme is put first and the rest keep their order; the modal closes; the form and preview reset to their defaults; the tag box is not cleared |
| ThemeManager.SubmitThenSearch | src/components/admin/ThemeManager.tsx:139 | after a submit, the search shows the new theme first if it matches, followed by the previous results |
| UploadPage.ChoosePreview | src/pages/UploadPage.tsx:32-47 | only a file whose type is exactly `video/webm` sets the preview file and URL; otherwise the form is unchanged; the preview file and URL stay paired and WebM |
| UploadPage.ClearPreview | src/pages/UploadPage.tsx:112 | both the preview file and its URL become null and nothing else changes |
| UploadPage.ChooseSource | src/pages/UploadPage.tsx:49-54 | any chosen file becomes the source; cancelling changes nothing |
| UploadPage.AddTag | src/pages/UploadPage.tsx:56-64 | only the tags and the tag box change, following the tag editor rule (trim, dedupe, clear on Enter, ignore blanks) |
| UploadPage.RemoveTag | src/pages/UploadPage.tsx:66-68 | the tags become the shared removal of that tag: it disappears, and the other tags keep their order and duplicates; nothing else changes |
| UploadPage.PriceThreshold | src/pages/UploadPage.tsx:70 | for every price: a free artwork's price is always valid; a paid one with an unparsable price is invalid; a paid price p is valid iff p ≥ 2.50 |
| UploadPage.IsFormValid | src/pages/UploadPage.tsx:71 | an enabled form has a title and both files; with consistent preview fields it has a WebM preview URL to show; a paid one carries a price of at least 2.50 |
| UploadPage.FillingInEnablesSubmit | src/pages/UploadPage.tsx:32-71 | given a title and a valid price, choosing a WebM preview and any source file through the handlers enables submit, with the preview fields consistent |
| UploadPage.ValidityIgnoresDetails | src/pages/UploadPage.tsx:71 | the description, tags, tag box, colour and AI flag never change validity |
| UploadPage.InitialFormInvalid | src/pages/UploadPage.tsx:5-16 | the freshly opened form cannot be submitted |
| UploadPage.RaisingPriceKeepsValid | src/pages/UploadPage.tsx:70-71 | raising a paid price keeps a valid form valid |
| AdminDashboard.RenderContent | src/pages/AdminDashboard.tsx:129-142 | an unknown tab key falls back to analytics; a known key shows its own tab |
| AdminDashboard.RenderContentOfTabKey | src/pages/AdminDashboard.tsx:129-142 | every sidebar key shows the tab it names |
| AdminDashboard.RangeLabel | src/pages/AdminDashboard.tsx:214-221 | every one of the four ranges has a label, beginning `Last ` |
| AdminDashboard.RangeLabelInjective | src/pages/AdminDashboard.tsx:214-221 | different ranges get different labels |
| AdminDashboard.SidebarBadge | src/pages/AdminDashboard.tsx:166 | as written, the moderation badge is 3 whatever the queue holds |
| AdminDashboard.SidebarBadgeIgnoresApproval | src/pages/AdminDashboard.tsx:166 | after item 101 is approved, fewer than 3 items wait but the badge still reads 3 |
| AdminDashboard.PendingBadge | src/pages/AdminDashboard.tsx:166 | the corrected badge is at most the queue length and is 0 iff the queue is empty |
| AdminDashboard.PendingBadgeFollowsApproval | src/pages/AdminDashboard.tsx:166 | approving lowers the corrected badge by exactly the number of items removed; on the first view it equals the as-written 3 |
| AdminDashboard.RemoveById | src/pages/AdminDashboard.tsx:360 | no remaining item has the id, every item with another id is kept in order, and the removed count is the number of items with the id |
| AdminDashboard.Approve | src/pages/AdminDashboard.tsx:359-362 | the queue after approving is the queue filtered by id: it removes every item with that id, keeps the rest in order and touches nothing else |
| AdminDashboard.ApproveIdempotent | src/pages/AdminDashboard.tsx:359-362 | approving again changes nothing, and approving an id not in the queue changes nothing |
| AdminDashboard.OpenRejectModal | src/pages/AdminDashboard.tsx:364-367 | the item is selected and the dialog opened; the queue is untouched |
| AdminDashboard.EditReason | src/pages/AdminDashboard.tsx:450 | typing changes only the reason |
| AdminDashboard.CancelReject | src/pages/AdminDashboard.tsx:456 | cancel closes the dialog and changes nothing else, so the selection and reason remain |
| AdminDashboard.Reject | src/pages/AdminDashboard.tsx:369-377 | with nothing selected, nothing changes; otherwise the selected id is removed, the dialog closed, and the selection and reason cleared |
| AdminDashboard.RejectMatchesApprove | src/pages/AdminDashboard.tsx:359-377 | rejecting an item through the dialog leaves the same queue as approving it |
| AdminDashboard.SearchUser | src/pages/AdminDashboard.tsx:479-486 | only the mock user is ever found; it is found iff the query is exactly `76561198000000000` or spells `neondreams` with each of its ten letters in either case |
| AdminDashboard.LowerIsNameIffCaseVariant | src/pages/AdminDashboard.tsx:481 | ASCII lower-casing yields `neondreams` exactly for the case variants of that name |
| Navbar.UnreadCount | src/components/Navbar.tsx:78 | the bell count is the number of unread notifications; it is at most the list length and is 0 iff all are read |
| Navbar.MarkAllAsRead | src/components/Navbar.tsx:74-76 | every notification becomes read and nothing else about any of them changes; the unread count becomes 0 |
| Navbar.MarkAllAsReadIdempotent | src/components/Navbar.tsx:74-76 | marking all read twice is the same as once |
| Navbar.InitialUnreadCount | src/components/Navbar.tsx:20-26 | the bar starts with two unread notifications |
| Navbar.MockLogin | src/components/Navbar.tsx:53-64 | the signed-in user is the mock administrator, and the bar navigates to its creator page |
| Navbar.Logout | src/components/Navbar.tsx:66-72 | the user becomes null, both drop-downs close and the bar goes home |
| Navbar.AdminLinkFollowsSession | src/components/Navbar.tsx:255 | the admin link shows after the mock sign-in and never after signing out |
| Navbar.IsActive | src/components/Navbar.tsx:106 | the link whose path is the current path is highlighted; a path of a different length, such as a page below the link, never highlights it; while a link is highlighted, no other bar link's path is current |
| Navbar.ExactlyOneActiveOnBarPage | src/components/Navbar.tsx:98-106 | on one of the bar's pages, that page's link is highlighted and no other |
| Navbar.AtMostOneActive | src/components/Navbar.tsx:98-106 | at most one of the bar's links is active at a time |
| ProfilePreview.IsVideo | src/components/AdvancedCropper.tsx:17 | a URL is video iff it ends with `.webm` or `.mp4` |
| ProfilePreview.DefaultBackgroundIsImage | src/components/AdvancedCropper.tsx:29 | the starting background is a still image |
| ProfilePreview.ZoomIn | src/components/AdvancedCropper.tsx:208 | zoom in adds 10 while that stays within 150, and otherwise gives exactly 150 |
| ProfilePreview.ZoomOut | src/components/AdvancedCropper.tsx:206 | zoom out subtracts 10 while that stays at or above 50, and otherwise gives exactly 50 |
| ProfilePreview.ClicksStayReachable | src/components/AdvancedCropper.tsx:206-208 | from a multiple of 10 in [50,150], any click sequence stays one |
| ProfilePreview.ZoomLevelsFromInitial | src/components/AdvancedCropper.tsx:24 | starting from 100, the zoom levels reachable by clicks are exactly the multiples of 10 in [50,150] |
| ProfilePreview.Band | src/components/AdvancedCropper.tsx:73-80 | a level's band is the first of ≥100, ≥50, ≥30, ≥20, ≥10 it reaches, else the last band |
| ProfilePreview.BandMonotone | src/components/AdvancedCropper.tsx:73-80 | a higher level never falls in a lower band |
| ProfilePreview.SetSlot | src/components/AdvancedCropper.tsx:52-56 | slot i takes the URL; inside the array every other slot and the length are unchanged; past the end the array grows with empty holes |
| ProfilePreview.SetSlotCommutes | src/components/AdvancedCropper.tsx:52-56 | filling two different slots gives the same array in either order |
| ProfilePreview.Place | src/components/AdvancedCropper.tsx:47-56 | the target takes the file's URL and every other image is unchanged |
| ProfilePreview.Upload | src/components/AdvancedCropper.tsx:44-58 | without a file or without a target nothing changes; otherwise the URL is placed at the target |
| ProfilePreview.PlaceCommutes | src/components/AdvancedCropper.tsx:44-58 | uploads to different targets do not interfere |
| ProfilePreview.LevelColor | src/components/AdvancedCropper.tsx:73-80 | the badge classes (defined identically at src/components/AdvancedDressingRoom.tsx:55-62) are the band's entry of the six-band palette |
| ProfilePreview.LevelColorFollowsBand | src/components/AdvancedCropper.tsx:73-80 | two levels get the same classes iff they are in the same band |
| AdvancedCropper.FileChosen | src/components/AdvancedCropper.tsx:44-58 | only the images can change, by the upload rule |
| AdvancedCropper.BackgroundUrlSubmitted | src/components/AdvancedCropper.tsx:65-71 | a non-empty URL becomes the background and clears the box, and nothing else changes; an empty box changes nothing |
| AdvancedCropper.ExportPlan | src/components/AdvancedCropper.tsx:83-160 | a background is refused iff it is video; otherwise the main crop is 22 px into the centred 940 px column at y = 270, 506 wide and showcase-high; the side crop is 100 wide, at the same y and height, and starts 13 px after the main crop ends |
| AdvancedCropper.CropsFollowCentre | src/components/AdvancedCropper.tsx:109 | widening the image by 2d shifts both crops right by d and changes nothing else |
| AdvancedCropper.StandardBackgroundCrops | src/components/AdvancedCropper.tsx:109-160 | on a 1920 px background the crops start at x = 512 and x = 1031 |
| AdvancedDressingRoom.ToggleAttachment | src/components/AdvancedDressingRoom.tsx:85 | the button always switches between fixed and scroll |
| AdvancedDressingRoom.ToggleAttachmentInvolution | src/components/AdvancedDressingRoom.tsx:85 | two presses restore the setting |
| AdvancedDressingRoom.AttachmentCaption | src/components/AdvancedDressingRoom.tsx:86 | the caption is `Fixed` iff the background is fixed |
| AdvancedDressingRoom.Zoomed | src/components/AdvancedDressingRoom.tsx:81-83 | a zoom click changes only the zoom, by one step of the clamped rule |
| AdvancedDressingRoom.FileChosen | src/components/AdvancedDressingRoom.tsx:34-48 | without a file or target nothing changes; otherwise the URL is placed at the target and nothing else changes |
| DressingRoom.LevelHue | src/components/DressingRoom.tsx:79-86 | the badge colour is the band's entry of red, purple, yellow, green, red, slate |
| DressingRoom.LevelColor | src/components/DressingRoom.tsx:79-86 | the badge classes split on spaces into exactly the `border-` and the `text-` class of the band's colour |
| DressingRoom.TopBandReusesRed | src/components/DressingRoom.tsx:79-86 | levels of 100 and above have the same red classes as levels 10 to 19 |
| DressingRoom.SecondClassIsTextClass | src/components/DressingRoom.tsx:381 | the class the level number takes, the second after splitting on spaces, is the `text-` class of the band's colour |
| DressingRoom.ViewportWidth | src/components/DressingRoom.tsx:88-92 | each of desktop, tablet and mobile has a width class |
| DressingRoom.ViewportWidthInjective | src/components/DressingRoom.tsx:88-92 | different devices get different widths |
| DressingRoom.BackgroundFor | src/components/DressingRoom.tsx:20-44 | the background renders as video iff its URL is video, and always uses that URL |
| DressingRoom.VideoExtensionsPlay | src/components/DressingRoom.tsx:18 | every `.webm` or `.mp4` URL plays as video |
| DressingRoom.FileChosen | src/components/DressingRoom.tsx:64-72 | nothing changes without a file and a target; the background never changes; only the targeted image can change, and it takes the URL |
| ThemesPage.Filtered | src/pages/Themes.tsx:17-19 | `all` returns the list unchanged; otherwise the result holds exactly the themes of that type; it is always an order-preserving subsequence whose length is the number of themes in the category, so repeated themes keep every copy |
| ThemesPage.ShowsEmptyMessage | src/pages/Themes.tsx:105-109 | the empty message is shown iff the filtered list is empty, that is, iff no theme is in the category |
| ThemesPage.AnimatedAndStaticPartitionAll | src/pages/Themes.tsx:17-19 | when every theme is animated or static, the two views together hold each theme of the full list exactly once |
| ThemesPage.CatalogueKinds | src/pages/Themes.tsx:5-12 | every catalogue theme is animated or static |
| ThemesPage.CataloguePartition | src/pages/Themes.tsx:5-19 | the animated and static views partition the shipped catalogue |
| ThemesPage.CatalogueNeverEmpty | src/pages/Themes.tsx:5-19 | no category shows the empty message on the shipped catalogue |

## Findings

| source | as written | input that shows it | evidently intended | confidence | as-written member | corrected member |
|---|---|---|---|---|---|---|
| src/pages/AdminDashboard.tsx:166 | the Moderation badge is the length of the constant mock list, while the queue is a separate state copied from it at line 354 | approve artwork 101: two items wait, the badge still says 3 | the badge counts the items still in the queue | medium, not executed (the dashboard is a mock, and the queue state lives in the child tab) | AdminDashboard.SidebarBadge, AdminDashboard.SidebarBadgeIgnoresApproval | AdminDashboard.PendingBadge, AdminDashboard.PendingBadgeFollowsApproval |

## Left out

- Network, storage and signing in the callback: the provider POST, the `GetPlayerSummaries` call and its JSON decoding, the D1 SQL, HS256 signing with `jose`, and the clock read by `setIssuedAt`. These are parameters: the reply text, a player-or-nothing, an insert that does or does not return its row, a signer, and the clock in whole seconds. URL encoding of queries is not modelled; a query is a list of decoded pairs.
- Exceptions from `fetch`, `json()` or the database: the model has no thrown-error path. Only the handler's own error returns are modelled.
- The concurrent first-login race. Lookup then insert runs without a transaction, and the model is sequential, so it claims no uniqueness under concurrency. The model assumes no uniqueness constraint on `steam_id`; only the insert's returned row counts.
- `functions/api/themes.ts`, `functions/api/artworks.ts` and `functions/api/upload.ts` are thin storage handlers and are not part of this model. `functions/types.d.ts` has declarations only; its `User` shape is reused.
- Browser APIs: canvas drawing and image loading in export, `URL.createObjectURL` (its URL is a parameter), file inputs, the clipboard, `localStorage`, router navigation (the path is a field), DOM refs with their null checks, `alert` and the `setTimeout` toasts.
- AdvancedCropper.ExportPlan: the plan is computed as if the background image had loaded. The asynchronous `onload` and the refs and canvas-context checks (src/components/AdvancedCropper.tsx:89-93) are not modelled.
- JavaScript numbers: revenue, artwork and theme prices, and crop coordinates are exact `real`s. Steam levels and zoom are integers. `parseFloat` is represented by its outcome, a parsed real or none. Float rounding, `toFixed` and `toLocaleString` are not modelled.
- FancyText.SmallCaps: `toLowerCase`/`toUpperCase` are modelled on ASCII only. JavaScript's wider Unicode case mapping is not modelled: for example, upper-casing a non-ASCII letter such as `é`, or mapping `ß` to `SS`.
- ThemeManager.FilteredThemes: lower-casing is ASCII-only, for the same reason.
- The theme manager's submit delay and its unreachable `catch` branch, and the random number used as the new theme id (it is a parameter).
- Rendering: JSX, Tailwind classes other than the compared strings, icons and animation. The presentation-only pages (Home, Footer, Layout, App, Pricing, Marketplace, Profile, ArtworkDetail, BackgroundDetail) are not part of this model.

=== FILE: admin_dashboard.dfy ===
/**
 The administrator dashboard: which tab the sidebar shows, the analytics
 range label, the moderation queue with its approve and reject actions, and
 the user search.
 */
module AdminDashboard {
  import opened Options
  import opened Strings
  import Seqs

  // ---------------------------------------------------------------- tabs

  datatype Tab = Analytics | Moderation | Users | Themes

  /** The key the sidebar stores for each tab. */
  function TabKey(t: Tab): string {
    match t
    case Analytics => "analytics"
    case Moderation => "moderation"
    case Users => "users"
    case Themes => "themes"
  }

  /** The tab drawn for the stored key; an unknown key falls back to analytics. */
  function RenderContent(key: string): (t: Tab)
    ensures key !in {"analytics", "moderation", "users", "themes"} ==> t == Analytics
    ensures TabKey(t) == key || t == Analytics
  {
    if key == "moderation" then Moderation
    else if key == "users" then Users
    else if key == "themes" then Themes
    else Analytics
  }

  /** Every sidebar button shows the tab it names. */
  lemma RenderContentOfTabKey(t: Tab)
    ensures RenderContent(TabKey(t)) == t
  {
  }

  datatype TimeRange = Last24h | Last7d | Last15d | Last30d

  /** The heading of the analytics range selector. */
  function RangeLabel(r: TimeRange): (text: string)
    ensures |text| > 5 && text[..5] == "Last "
  {
    match r
    case Last24h => "Last 24 Hours"
    case Last7d => "Last 7 Days"
    case Last15d => "Last 15 Days"
    case Last30d => "Last 30 Days"
  }

  /** Different ranges get different labels. */
  lemma RangeLabelInjective(a: TimeRange, b: TimeRange)
    requires RangeLabel(a) == RangeLabel(b)
    ensures a == b
  {
  }

  // ---------------------------------------------------------------- moderation

  datatype Artwork = Artwork(id: int, title: string, creator: string, preview: string, submitted: string)

  const PendingArtworks := [
    Artwork(101, "Neon Samurai 2077", "CyberArtist_X", "https://picsum.photos/seed/admin1/300/200", "2 hours ago"),
    Artwork(102, "Abstract Fluid Motion", "FlowMaster", "https://picsum.photos/seed/admin2/300/200", "5 hours ago"),
    Artwork(103, "Retro Glitch Pack", "8BitWonder", "https://picsum.photos/seed/admin3/300/200", "1 day ago")
  ]

  /**
   The number on the Moderation sidebar item. It is read from the mock list,
   not from the queue, so it does not drop as items are handled.
   */
  function SidebarBadge(queue: Queue): (n: nat)
    ensures n == 3
  {
    |PendingArtworks|
  }

  /** The moderation tab: the queue, the reject dialog, the item it is for and the typed reason. */
  datatype Queue = Queue(items: seq<Artwork>, modalOpen: bool, selected: Option<Artwork>, reason: string)

  const InitialQueue := Queue(PendingArtworks, false, None, "")

  /** The queue without every item that has the given id. */
  function RemoveById(items: seq<Artwork>, id: int): (r: seq<Artwork>)
    ensures forall i :: 0 <= i < |r| ==> r[i] in items && r[i].id != id
    ensures forall i :: 0 <= i < |items| && items[i].id != id ==> items[i] in r
    ensures Seqs.IsSubsequence(r, items)
    ensures |r| + Seqs.Count(items, (a: Artwork) => a.id == id) == |items|
  {
    Seqs.FilterIsSubsequence(items, (a: Artwork) => a.id != id);
    Seqs.FilterLength(items, (a: Artwork) => a.id == id);
    Seqs.FilterPartition(items, (a: Artwork) => a.id == id, (a: Artwork) => a.id != id);
    Seqs.Filter(items, (a: Artwork) => a.id != id)
  }

  /** Approving removes the item from the queue; nothing else changes. */
  function Approve(m: Queue, id: int): (r: Queue)
    ensures r.(items := m.items) == m
    ensures r.items == RemoveById(m.items, id)
    ensures forall i :: 0 <= i < |r.items| ==> r.items[i].id != id
    ensures forall i :: 0 <= i < |m.items| && m.items[i].id != id ==> m.items[i] in r.items
    ensures Seqs.IsSubsequence(r.items, m.items)
  {
    m.(items := RemoveById(m.items, id))
  }

  /**
   The badge the sidebar should show: the number of items still waiting in
   the queue. It agrees with the mock count when the queue is first shown.
   */
  function PendingBadge(queue: Queue): (n: nat)
    ensures n <= |queue.items|
    ensures n == 0 <==> queue.items == []
  {
    |queue.items|
  }

  /** Approving lowers the corrected badge by exactly the number of items removed, and at the start it reads 3. */
  lemma PendingBadgeFollowsApproval(m: Queue, id: int)
    ensures PendingBadge(Approve(m, id)) + Seqs.Count(m.items, (a: Artwork) => a.id == id) == PendingBadge(m)
    ensures PendingBadge(InitialQueue) == SidebarBadge(InitialQueue)
  {
  }

  /** As written, the badge still reads 3 after an item has been approved, though fewer are waiting. */
  lemma SidebarBadgeIgnoresApproval()
    ensures var after := Approve(InitialQueue, 101);
            PendingBadge(after) < 3 && SidebarBadge(after) == 3
  {
    assert PendingArtworks[0].id == 101;
    PendingBadgeFollowsApproval(InitialQueue, 101);
  }

  /** Approving the same id again changes nothing, and an id that is not queued changes nothing. */
  lemma ApproveIdempotent(m: Queue, id: int)
    ensures Approve(Approve(m, id), id) == Approve(m, id)
    ensures (forall i :: 0 <= i < |m.items| ==> m.items[i].id != id) ==> Approve(m, id) == m
  {
    var once := RemoveById(m.items, id);
    Seqs.FilterKeepsAll(once, (a: Artwork) => a.id != id);
    if forall i :: 0 <= i < |m.items| ==> m.items[i].id != id {
      Seqs.FilterKeepsAll(m.items, (a: Artwork) => a.id != id);
    }
  }

  /** The Reject button selects the item and opens the dialog; the queue is untouched. */
  function OpenRejectModal(m: Queue, item: Artwork): (r: Queue)
    ensures r.items == m.items && r.reason == m.reason
    ensures r.modalOpen && r.selected == Some(item)
  {
    m.(selected := Some(item), modalOpen := true)
  }

  /** Typing in the reason box. */
  function EditReason(m: Queue, reason: string): (r: Queue)
    ensures r.items == m.items && r.modalOpen == m.modalOpen && r.selected == m.selected
    ensures r.reason == reason
  {
    m.(reason := reason)
  }

  /** Cancel closes the dialog only: the selection and the reason stay as they were. */
  function CancelReject(m: Queue): (r: Queue)
    ensures !r.modalOpen
    ensures r.(modalOpen := m.modalOpen) == m
  {
    m.(modalOpen := false)
  }

  /**
   Confirming a rejection removes the selected item's id from the queue,
   closes the dialog and clears the selection and the reason; with nothing
   selected it does nothing.
   */
  function Reject(m: Queue): (r: Queue)
    ensures m.selected.None? ==> r == m
    ensures m.selected.Some? ==>
              && r.items == RemoveById(m.items, m.selected.value.id)
              && !r.modalOpen && r.selected.None? && r.reason == ""
  {
    if m.selected.Some? then
      Queue(RemoveById(m.items, m.selected.value.id), false, None, "")
    else
      m
  }

  /** Rejecting an item through the dialog leaves the same queue as approving it. */
  lemma RejectMatchesApprove(m: Queue, item: Artwork, reason: string)
    ensures Reject(EditReason(OpenRejectModal(m, item), reason)).items == Approve(m, item.id).items
  {
  }

  // ---------------------------------------------------------------- user search

  datatype UserRecord = UserRecord(id: string, username: string, steamId: string, email: string, role: string,
                                   level: nat, totalRevenue: real, status: string, subscription: string)

  const MockUser := UserRecord("u_123", "NeonDreams", "76561198000000000", "neon@example.com", "Creator",
                               3, 1240.50, "Active", "Free")

  const MockUsername := "neondreams"
  const MockSteamId := "76561198000000000"

  /** A query spells the mock username in some mix of ASCII cases. */
  ghost predicate CaseVariantOfName(query: string) {
    && |query| == |MockUsername|
    && forall i :: 0 <= i < |query| ==> query[i] == MockUsername[i] || query[i] == MockUsername[i] - 'a' + 'A'
  }

  /** Lower-casing gives the username exactly when each of the ten letters is the name's letter in either case. */
  lemma LowerIsNameIffCaseVariant(query: string)
    ensures Lower(query) == MockUsername <==> CaseVariantOfName(query)
  {
    if Lower(query) == MockUsername {
      forall i | 0 <= i < |query|
        ensures query[i] == MockUsername[i] || query[i] == MockUsername[i] - 'a' + 'A'
      {
        assert AsciiLower(query[i]) == MockUsername[i];
      }
    }
    if CaseVariantOfName(query) {
      assert forall i :: 0 <= i < |query| ==> Lower(query)[i] == MockUsername[i];
    }
  }

  /**
   The user search: the mock user is found by its username in any ASCII
   case, or by its exact Steam id; any other query finds nobody.
   */
  function SearchUser(query: string): (r: Option<UserRecord>)
    ensures r.Some? ==> r.value == MockUser
    ensures r.Some? <==> query == MockSteamId || CaseVariantOfName(query)
  {
    LowerIsNameIffCaseVariant(query);
    if Lower(query) == MockUsername || query == MockSteamId then Some(MockUser) else None
  }
}

=== FILE: advanced_cropper.dfy ===
/**
 The advanced profile cropper: the simulator state it edits (background URL
 box, zoom, uploads, level badge) and the two crop rectangles it cuts out of
 a still background for Steam's main and side artwork showcase panels.
 */
module AdvancedCropper {
  import opened Options
  import opened ProfilePreview

  /** The cropper's editable state. */
  datatype Cropper = Cropper(assets: Assets, bgUrlInput: string, zoom: int, showcaseHeight: int,
                             uploadTarget: Option<Target>)

  const Initial := Cropper(InitialAssets, "", InitialZoom, 506, None)

  /** The file input's change handler; `url` is the object URL the browser makes for the file. */
  function FileChosen(c: Cropper, hasFile: bool, url: string): (r: Cropper)
    ensures !hasFile || c.uploadTarget.None? ==> r == c
    ensures r.(assets := c.assets) == c
    ensures hasFile && c.uploadTarget.Some? ==> r.assets == Place(c.assets, c.uploadTarget.value, url)
  {
    c.(assets := Upload(c.assets, hasFile, c.uploadTarget, url))
  }

  /** Submitting the URL box: a non-empty URL becomes the background and the box is cleared. */
  function BackgroundUrlSubmitted(c: Cropper): (r: Cropper)
    ensures c.bgUrlInput == "" ==> r == c
    ensures c.bgUrlInput != "" ==>
              && r.assets == c.assets.(background := c.bgUrlInput)
              && r.bgUrlInput == ""
              && r.(assets := c.assets, bgUrlInput := c.bgUrlInput) == c
  {
    if c.bgUrlInput != "" then
      c.(assets := c.assets.(background := c.bgUrlInput), bgUrlInput := "")
    else
      c
  }

  // ---------------------------------------------------------------- export

  /** A rectangle of the background image, in its pixels. */
  datatype Rect = Rect(x: real, y: real, width: real, height: real)

  /** What the export button does: refuse a video background, or cut the two panels. */
  datatype Export = VideoNotSupported | Crops(main: Rect, side: Rect)

  /** The width of Steam's centred profile column. */
  const ProfileWidth: real := 940.0
  /** The main panel's inset from the left edge of the profile column. */
  const MainInset: real := 22.0
  /** The top edge of the artwork showcase. */
  const ShowcaseTop: real := 270.0
  const MainWidth: real := 506.0
  const SideWidth: real := 100.0
  /** The space left between the main and side panels. */
  const PanelGap: real := 13.0

  /**
   The export plan for the current background, whose natural width is
   `imageWidth` once loaded. A video background is refused before anything
   is cut. Otherwise both panels start at the showcase top with the showcase
   height; the main panel is inset from the left of the centred profile
   column and the side panel follows it after a fixed gap.
   */
  function ExportPlan(background: string, imageWidth: real, showcaseHeight: real): (e: Export)
    ensures e.VideoNotSupported? <==> IsVideo(background)
    ensures e.Crops? ==>
              && e.main.x - (imageWidth - ProfileWidth) / 2.0 == MainInset
              && e.main.y == ShowcaseTop && e.side.y == ShowcaseTop
              && e.main.width == MainWidth && e.side.width == SideWidth
              && e.main.height == showcaseHeight && e.side.height == showcaseHeight
              && e.side.x == e.main.x + e.main.width + PanelGap
  {
    if IsVideo(background) then VideoNotSupported
    else
      var profileOffsetX := (imageWidth - ProfileWidth) / 2.0;
      Crops(Rect(profileOffsetX + 22.0, 270.0, 506.0, showcaseHeight),
            Rect(profileOffsetX + 22.0 + 506.0 + 13.0, 270.0, 100.0, showcaseHeight))
  }

  /**
   The crops follow the centre of the background: widening the image by
   `2d` shifts both rectangles right by `d` and changes nothing else.
   */
  lemma CropsFollowCentre(background: string, imageWidth: real, d: real, showcaseHeight: real)
    requires !IsVideo(background)
    ensures var e := ExportPlan(background, imageWidth, showcaseHeight);
            var f := ExportPlan(background, imageWidth + 2.0 * d, showcaseHeight);
            f.main == e.main.(x := e.main.x + d) && f.side == e.side.(x := e.side.x + d)
  {
  }

  /** On Steam's usual 1920-pixel background the panels are cut at x = 512 and x = 1031. */
  lemma StandardBackgroundCrops(background: string, showcaseHeight: real)
    requires !IsVideo(background)
    ensures var e := ExportPlan(background, 1920.0, showcaseHeight);
            e.main.x == 512.0 && e.side.x == 1031.0
  {
  }
}

=== FILE: advanced_dressing_room.dfy ===
/**
 The advanced dressing room: the same level badge, zoom and upload rules as
 the cropper, plus a switch between a fixed and a scrolling background.
 */
module AdvancedDressingRoom {
  import opened Options
  import opened ProfilePreview

  datatype Attachment = Fixed | Scroll

  /** The simulator's editable state. */
  datatype Room = Room(assets: Assets, zoom: int, attachment: Attachment, uploadTarget: Option<Target>)

  const Initial := Room(InitialAssets, InitialZoom, Fixed, None)

  /** The "BG:" button flips between a fixed and a scrolling background. */
  function ToggleAttachment(a: Attachment): (r: Attachment)
    ensures r != a
  {
    if a == Fixed then Scroll else Fixed
  }

  /** Two presses of the "BG:" button restore the setting. */
  lemma ToggleAttachmentInvolution(a: Attachment)
    ensures ToggleAttachment(ToggleAttachment(a)) == a
  {
  }

  /** The button's caption. */
  function AttachmentCaption(a: Attachment): (caption: string)
    ensures caption == "Fixed" <==> a == Fixed
  {
    if a == Fixed then "Fixed" else "Scrolling"
  }

  /** The zoom buttons change the zoom only. */
  function Zoomed(room: Room, click: ZoomClick): (r: Room)
    ensures r.(zoom := room.zoom) == room
    ensures r.zoom == ApplyClicks(room.zoom, [click])
  {
    room.(zoom := if click == In then ZoomIn(room.zoom) else ZoomOut(room.zoom))
  }

  /** The file input's change handler; only the targeted image can change. */
  function FileChosen(room: Room, hasFile: bool, url: string): (r: Room)
    ensures !hasFile || room.uploadTarget.None? ==> r == room
    ensures r.(assets := room.assets) == room
    ensures hasFile && room.uploadTarget.Some? ==> r.assets == Place(room.assets, room.uploadTarget.value, url)
  {
    room.(assets := Upload(room.assets, hasFile, room.uploadTarget, url))
  }
}

=== FILE: creator_badge.dfy ===
/**
 Creator tiers (`CreatorBadge.tsx`): a creator's net revenue, in euros,
 places them in one of five tiers, or in none below €50. Revenue is a `real`,
 so the band boundaries are exact.
 */
module CreatorBadge {
  import opened Options
  import Seqs

  /** The revenue at which each tier starts, for levels 1 to 5. */
  const TierStarts: seq<real> := [50.0, 250.0, 1000.0, 1500.0, 2500.0]
  const TierNames: seq<string> := ["Novice", "Artisan", "Elite", "Master", "Legend"]

  /** What `getCreatorLevel` returns for a tier (the icon and the background/border classes are left out). */
  datatype Tier = Tier(level: int, name: string, color: string)

  /** What `getNextLevel` returns: the tier to reach next and the revenue that reaches it. */
  datatype NextTier = NextTier(level: int, threshold: real, name: string)

  /** The tier's level, counting "no tier" as 0. */
  function LevelOf(t: Option<Tier>): int {
    if t.Some? then t.value.level else 0
  }

  /** The number of tier starts the revenue has reached: the level by definition. */
  function StartsReached(revenue: real): (n: nat)
    ensures n <= 5
  {
    Seqs.Count(TierStarts, (start: real) => start <= revenue)
  }

  /** `getCreatorLevel`: the highest tier whose start the revenue has reached. */
  function CreatorLevel(revenue: real): (t: Option<Tier>)
    ensures t.None? <==> revenue < 50.0
    ensures LevelOf(t) == StartsReached(revenue)
    ensures t.Some? ==> 1 <= t.value.level <= 5
                        && t.value.name == TierNames[t.value.level - 1]
                        && TierStarts[t.value.level - 1] <= revenue
                        && (t.value.level < 5 ==> revenue < TierStarts[t.value.level])
  {
    if revenue >= 2500.0 then Some(Tier(5, "Legend", "text-purple-400"))
    else if revenue >= 1500.0 then Some(Tier(4, "Master", "text-cyan-400"))
    else if revenue >= 1000.0 then Some(Tier(3, "Elite", "text-yellow-400"))
    else if revenue >= 250.0 then Some(Tier(2, "Artisan", "text-slate-300"))
    else if revenue >= 50.0 then Some(Tier(1, "Novice", "text-orange-400"))
    else None
  }

  /** More revenue never means a lower tier. */
  lemma CreatorLevelMonotone(r1: real, r2: real)
    requires r1 <= r2
    ensures LevelOf(CreatorLevel(r1)) <= LevelOf(CreatorLevel(r2))
  {
  }

  /** The five bands of the badge, spelled out. */
  lemma CreatorLevelBands(revenue: real)
    ensures 50.0 <= revenue < 250.0 ==> CreatorLevel(revenue).Some? && CreatorLevel(revenue).value.level == 1
    ensures 250.0 <= revenue < 1000.0 ==> CreatorLevel(revenue).Some? && CreatorLevel(revenue).value.level == 2
    ensures 1000.0 <= revenue < 1500.0 ==> CreatorLevel(revenue).Some? && CreatorLevel(revenue).value.level == 3
    ensures 1500.0 <= revenue < 2500.0 ==> CreatorLevel(revenue).Some? && CreatorLevel(revenue).value.level == 4
    ensures 2500.0 <= revenue ==> CreatorLevel(revenue).Some? && CreatorLevel(revenue).value.level == 5
  {
  }

  /**
   `getNextLevel`: the tier just above the current one and its start; nothing
   for a Legend.
   */
  function NextLevel(revenue: real): (n: Option<NextTier>)
    ensures n.None? <==> revenue >= 2500.0
    ensures n.Some? ==> n.value.level == LevelOf(CreatorLevel(revenue)) + 1
    ensures n.Some? ==> revenue < n.value.threshold && n.value.threshold == TierStarts[n.value.level - 1]
    ensures n.Some? ==> CreatorLevel(n.value.threshold).Some?
                        && CreatorLevel(n.value.threshold).value.level == n.value.level
                        && CreatorLevel(n.value.threshold).value.name == n.value.name
  {
    if revenue >= 2500.0 then None
    else if revenue >= 1500.0 then Some(NextTier(5, 2500.0, "Legend"))
    else if revenue >= 1000.0 then Some(NextTier(4, 1500.0, "Master"))
    else if revenue >= 250.0 then Some(NextTier(3, 1000.0, "Elite"))
    else if revenue >= 50.0 then Some(NextTier(2, 250.0, "Artisan"))
    else Some(NextTier(1, 50.0, "Novice"))
  }

  /** What the `CreatorBadge` component draws: the tier, and whether it gets the Legend effects. */
  datatype Badge = Badge(tier: Tier, isLegend: bool)

  /** `CreatorBadge`: nothing below the first tier; the Legend effects exactly at level 5. */
  function BadgeFor(revenue: real): (b: Option<Badge>)
    ensures b.None? <==> CreatorLevel(revenue).None?
    ensures b.Some? ==> b.value.tier == CreatorLevel(revenue).value
    ensures b.Some? ==> (b.value.isLegend <==> revenue >= 2500.0)
  {
    match CreatorLevel(revenue)
    case None => None
    case Some(tier) => Some(Badge(tier, tier.level == 5))
  }
}

=== FILE: creator_studio.dfy ===
/**
 The level-progress bar of the creator studio's overview (`OverviewTab` in
 `CreatorStudio.tsx`) and the status badge of the artworks table.
 */
module CreatorStudio {
  import opened Options
  import opened CreatorBadge

  function Min(a: real, b: real): real { if a <= b then a else b }
  function Max(a: real, b: real): real { if a >= b then a else b }

  /** The start of the band the bar is measured from: 0 without a tier. */
  function PrevThreshold(current: Option<Tier>): real {
    if current.None? then 0.0
    else if current.value.level == 1 then 50.0
    else if current.value.level == 2 then 250.0
    else if current.value.level == 3 then 1000.0
    else 1500.0
  }

  /** Below the top tier, the bar starts where the current tier starts, or at 0 without a tier. */
  lemma PrevThresholdIsTierStart(revenue: real)
    requires NextLevel(revenue).Some?
    ensures CreatorLevel(revenue).Some? ==>
              PrevThreshold(CreatorLevel(revenue)) == TierStarts[CreatorLevel(revenue).value.level - 1]
    ensures CreatorLevel(revenue).None? ==> PrevThreshold(CreatorLevel(revenue)) == 0.0
  {
  }

  /**
   The percentage shown on the bar: how far the revenue has come from the
   band's start to the next tier's start, clamped to [0, 100]; 100 for a
   Legend.
   */
  function Progress(revenue: real): (p: real)
    ensures 0.0 <= p <= 100.0
    ensures p == 100.0 <==> NextLevel(revenue).None?
    ensures NextLevel(revenue).Some? && revenue >= 0.0 ==>
              p == (revenue - PrevThreshold(CreatorLevel(revenue)))
                   / (NextLevel(revenue).value.threshold - PrevThreshold(CreatorLevel(revenue))) * 100.0
  {
    var next := NextLevel(revenue);
    if next.Some? then
      var prevThreshold := PrevThreshold(CreatorLevel(revenue));
      var totalNeeded := next.value.threshold - prevThreshold;
      var currentProgress := revenue - prevThreshold;
      assert totalNeeded > 0.0;
      var raw := currentProgress / totalNeeded * 100.0;
      assert raw < 100.0 by {
        assert currentProgress < totalNeeded;
        assert currentProgress / totalNeeded < 1.0;
      }
      assert revenue >= 0.0 ==> raw >= 0.0 by {
        if revenue >= 0.0 {
          assert currentProgress >= 0.0;
        }
      }
      Min(100.0, Max(0.0, raw))
    else
      100.0
  }

  /**
   Below the top tier the band has positive width and, for non-negative
   revenue, the revenue has reached the band's start: the clamp only matters
   for negative revenue.
   */
  lemma ProgressBandWellFormed(revenue: real)
    requires NextLevel(revenue).Some?
    ensures NextLevel(revenue).value.threshold - PrevThreshold(CreatorLevel(revenue)) > 0.0
    ensures revenue >= 0.0 ==> PrevThreshold(CreatorLevel(revenue)) <= revenue
  {
  }

  /** The "Earn €x more" amount, shown only below the top tier. */
  function RemainingToNext(revenue: real): (r: Option<real>)
    ensures r.Some? <==> NextLevel(revenue).Some?
    ensures r.Some? ==> r.value > 0.0 && revenue + r.value == NextLevel(revenue).value.threshold
  {
    match NextLevel(revenue)
    case None => None
    case Some(next) => Some(next.threshold - revenue)
  }

  /** What `StatusBadge` draws. */
  datatype StatusBadge =
    | NoBadge
    | LiveBadge
    | PendingBadge
    | RejectedBadge(reasonTooltip: Option<string>)

  /**
   `StatusBadge`: one badge per known status, nothing for any other; the
   rejection reason appears in a tooltip only when it is a non-empty string.
   */
  function StatusBadgeFor(status: string, reason: Option<string>): (b: StatusBadge)
    ensures b.LiveBadge? <==> status == "Live"
    ensures b.PendingBadge? <==> status == "Pending"
    ensures b.RejectedBadge? <==> status == "Rejected"
    ensures b.NoBadge? <==> status != "Live" && status != "Pending" && status != "Rejected"
    ensures b.RejectedBadge? ==> (b.reasonTooltip.Some? <==> reason.Some? && reason.value != "")
    ensures b.RejectedBadge? && b.reasonTooltip.Some? ==> b.reasonTooltip == reason
  {
    if status == "Live" then LiveBadge
    else if status == "Pending" then PendingBadge
    else if status == "Rejected" then
      RejectedBadge(if reason.Some? && reason.value != "" then reason else None)
    else NoBadge
  }
}

=== FILE: dressing_room.dfy ===
/**
 The classic dressing room: its own level-badge palette (whose second class
 colours the level number), the device-width presets, the choice between a
 video and an image background, and the upload of avatar and artwork images.
 */
module DressingRoom {
  import opened Options
  import opened Strings
  import opened ProfilePreview

  /** The Tailwind colour of a level's badge; the top band reuses the red of the 10-19 band. */
  function LevelHue(level: int): (hue: string)
    ensures ' ' !in hue
    ensures hue == ["red-500", "purple-500", "yellow-500", "green-500", "red-500", "slate-500"][Band(level)]
  {
    if level >= 100 then "red-500"
    else if level >= 50 then "purple-500"
    else if level >= 30 then "yellow-500"
    else if level >= 20 then "green-500"
    else if level >= 10 then "red-500"
    else "slate-500"
  }

  /** A border class and a text class of one colour, separated by a space. */
  function BadgeClasses(hue: string): (classes: string)
    requires ' ' !in hue
    ensures Split(classes, ' ') == ["border-" + hue, "text-" + hue]
  {
    var border := "border-" + hue;
    var text := "text-" + hue;
    assert ' ' !in border by {
      assert forall k :: 7 <= k < |border| ==> border[k] == hue[k - 7];
    }
    assert ' ' !in text by {
      assert forall k :: 5 <= k < |text| ==> text[k] == hue[k - 5];
    }
    SplitAfterPiece(border, text, ' ');
    SplitWithoutSeparator(text, ' ');
    border + [' '] + text
  }

  /**
   The level badge classes. Every branch of the source returns a border class
   and a text class of the same colour, so the badge is written here as that
   pair over the band's colour.
   */
  function LevelColor(level: int): (classes: string)
    ensures Split(classes, ' ') == ["border-" + LevelHue(level), "text-" + LevelHue(level)]
    ensures Join(Split(classes, ' '), ' ') == classes
  {
    var classes := BadgeClasses(LevelHue(level));
    JoinSplit(classes, ' ');
    classes
  }

  /** Levels of 100 and above share the badge of levels 10 to 19. */
  lemma TopBandReusesRed(high: int, low: int)
    requires high >= 100 && 10 <= low < 20
    ensures LevelColor(high) == LevelColor(low) == "border-red-500 text-red-500"
  {
  }

  /**
   The level number takes the second space-separated class of the badge,
   which is always its `text-` class.
   */
  lemma SecondClassIsTextClass(level: int)
    ensures var parts := Split(LevelColor(level), ' ');
            |parts| >= 2 && parts[1] == "text-" + LevelHue(level)
  {
  }

  // ---------------------------------------------------------------- viewport

  datatype Viewport = Desktop | Tablet | Mobile

  /** The width classes of the preview frame. */
  function ViewportWidth(v: Viewport): (cls: string)
    ensures |cls| > 2 && cls[..2] == "w-"
  {
    match v
    case Desktop => "w-full max-w-[1000px]"
    case Tablet => "w-[768px]"
    case Mobile => "w-[375px]"
  }

  /** Each device preset has its own width. */
  lemma ViewportWidthInjective(a: Viewport, b: Viewport)
    requires ViewportWidth(a) == ViewportWidth(b)
    ensures a == b
  {
  }

  // ---------------------------------------------------------------- background

  datatype BackgroundElement = VideoBackground(src: string) | ImageBackground(src: string)

  /** The background layer: a looping video for video URLs, a cover image otherwise. */
  function BackgroundFor(src: string): (e: BackgroundElement)
    ensures e.src == src
    ensures e.VideoBackground? <==> IsVideo(src)
  {
    if IsVideo(src) then VideoBackground(src) else ImageBackground(src)
  }

  /** Any URL ending in `.webm` or `.mp4` plays as video. */
  lemma VideoExtensionsPlay(stem: string)
    ensures BackgroundFor(stem + ".webm").VideoBackground?
    ensures BackgroundFor(stem + ".mp4").VideoBackground?
  {
  }

  // ---------------------------------------------------------------- uploads

  /** The images this simulator lets the user replace. */
  datatype Slot = AvatarSlot | MainSlot | SideSlot

  datatype Images = Images(avatar: string, background: string, artworkMain: Option<string>, artworkSide: Option<string>)

  /** The file input's handler: with a file and a target, the target takes the file's URL. */
  function FileChosen(im: Images, hasFile: bool, target: Option<Slot>, url: string): (r: Images)
    ensures !hasFile || target.None? ==> r == im
    ensures r.background == im.background
    ensures r.avatar != im.avatar ==> target == Some(AvatarSlot)
    ensures r.artworkMain != im.artworkMain ==> target == Some(MainSlot)
    ensures r.artworkSide != im.artworkSide ==> target == Some(SideSlot)
    ensures hasFile && target == Some(AvatarSlot) ==> r.avatar == url
    ensures hasFile && target == Some(MainSlot) ==> r.artworkMain == Some(url)
    ensures hasFile && target == Some(SideSlot) ==> r.artworkSide == Some(url)
  {
    if hasFile && target.Some? then
      match target.value
      case AvatarSlot => im.(avatar := url)
      case MainSlot => im.(artworkMain := Some(url))
      case SideSlot => im.(artworkSide := Some(url))
    else im
  }
}

=== FILE: fancy_text.dfy ===
/**
 The Fancy Text Generator of the tools page (`FancyTextGenerator` in
 `Tools.tsx`). JavaScript strings are sequences of UTF-16 code units and
 `split('')` splits them unit by unit, so the model works on code units:
 a letter mapped to a character outside the Basic Multilingual Plane becomes
 a surrogate pair.
 */
module FancyText {

  newtype CodeUnit = x: int | 0 <= x < 0x1_0000

  type Utf16 = seq<CodeUnit>

  const Space: CodeUnit := 0x20
  const OpenBracket: CodeUnit := 0x5B
  const CloseBracket: CodeUnit := 0x5D

  predicate IsAsciiUpper(c: CodeUnit) { 0x41 <= c <= 0x5A }
  predicate IsAsciiLower(c: CodeUnit) { 0x61 <= c <= 0x7A }
  predicate IsAsciiLetter(c: CodeUnit) { IsAsciiUpper(c) || IsAsciiLower(c) }

  ghost predicate LetterFree(s: Utf16) {
    forall k :: 0 <= k < |s| ==> !IsAsciiLetter(s[k])
  }

  /** A Unicode scalar value: a code point that is not a surrogate. */
  predicate IsScalar(cp: int) {
    0 <= cp < 0x11_0000 && !(0xD800 <= cp < 0xE000)
  }

  /** The UTF-16 encoding of a scalar value: one unit in the Basic Multilingual Plane, else a surrogate pair. */
  function Encode(cp: int): (u: Utf16)
    requires IsScalar(cp)
    ensures |u| == (if cp < 0x1_0000 then 1 else 2)
    ensures |u| == 2 ==> 0xD800 <= u[0] < 0xDC00 && 0xDC00 <= u[1] < 0xE000
  {
    if cp < 0x1_0000 then [cp as CodeUnit]
    else [(0xD800 + (cp - 0x1_0000) / 0x400) as CodeUnit, (0xDC00 + (cp - 0x1_0000) % 0x400) as CodeUnit]
  }

  /** Reads back the code point of a one-unit or two-unit encoding. */
  function Decode(u: Utf16): int
    requires 1 <= |u| <= 2
  {
    if |u| == 1 then u[0] as int
    else 0x1_0000 + (u[0] as int - 0xD800) * 0x400 + (u[1] as int - 0xDC00)
  }

  /** Encoding loses nothing. */
  lemma DecodeEncode(cp: int)
    requires IsScalar(cp)
    ensures Decode(Encode(cp)) == cp
  {
    if cp >= 0x1_0000 {
      var v := cp - 0x1_0000;
      assert v == (v / 0x400) * 0x400 + v % 0x400;
    }
  }

  /** The four letter tables: each maps an ASCII letter to a mathematical or enclosed form. */
  datatype Table = BoldSans | ItalicSerif | Monospace | Bubbles

  /** The code point a table gives a letter: a contiguous run per case, with the italic `h` as U+210E. */
  function TableCodePoint(t: Table, c: CodeUnit): (cp: int)
    requires IsAsciiLetter(c)
    ensures IsScalar(cp)
    ensures cp >= 0x80
  {
    var (lowerA, upperA) := match t
      case BoldSans => (0x1D5EE, 0x1D5D4)
      case ItalicSerif => (0x1D44E, 0x1D434)
      case Monospace => (0x1D68A, 0x1D670)
      case Bubbles => (0x24D0, 0x24B6);
    if t == ItalicSerif && c == 0x68 then 0x210E
    else if IsAsciiLower(c) then lowerA + (c as int - 0x61)
    else upperA + (c as int - 0x41)
  }

  /** `map[c] || c` for one code unit: the table's form of a letter, anything else unchanged. */
  function Image(t: Table, c: CodeUnit): (u: Utf16)
    ensures IsAsciiLetter(c) ==> u == Encode(TableCodePoint(t, c))
    ensures !IsAsciiLetter(c) ==> u == [c]
    ensures 1 <= |u| <= 2
    ensures IsAsciiLetter(c) ==> LetterFree(u)
  {
    if IsAsciiLetter(c) then Encode(TableCodePoint(t, c)) else [c]
  }

  /** A table style: each code unit is replaced by its table image, or kept when it has none. */
  function Transform(t: Table, s: Utf16): (r: Utf16)
    ensures |s| <= |r| <= 2 * |s|
    ensures LetterFree(r)
    decreases |s|
  {
    if s == [] then [] else Image(t, s[0]) + Transform(t, s[1..])
  }

  /** The transform works code unit by code unit: it distributes over concatenation. */
  lemma {:induction false} TransformAppend(t: Table, a: Utf16, b: Utf16)
    ensures Transform(t, a + b) == Transform(t, a) + Transform(t, b)
    decreases |a|
  {
    if a == [] {
      assert a + b == b;
    } else {
      assert (a + b)[0] == a[0];
      assert (a + b)[1..] == a[1..] + b;
      TransformAppend(t, a[1..], b);
    }
  }

  /** Every code unit contributes exactly its own image, in place. */
  lemma TransformAt(t: Table, s: Utf16, i: nat)
    requires i < |s|
    ensures Transform(t, s) == Transform(t, s[..i]) + Image(t, s[i]) + Transform(t, s[i + 1..])
  {
    var rest := s[i..];
    assert s == s[..i] + rest;
    TransformAppend(t, s[..i], rest);
    assert rest[0] == s[i] && rest[1..] == s[i + 1..];
  }

  /** Text with no ASCII letter passes through unchanged. */
  lemma {:induction false} TransformFixesLetterFree(t: Table, s: Utf16)
    requires LetterFree(s)
    ensures Transform(t, s) == s
    decreases |s|
  {
    if s != [] {
      TransformFixesLetterFree(t, s[1..]);
    }
  }

  /** Applying a table twice is applying it once: no table value contains an ASCII letter. */
  lemma TransformIdempotent(t: Table, s: Utf16)
    ensures Transform(t, Transform(t, s)) == Transform(t, s)
  {
    TransformFixesLetterFree(t, Transform(t, s));
  }

  /** The number of ASCII letters in `s`. */
  function LetterCount(s: Utf16): nat
    decreases |s|
  {
    if s == [] then 0 else (if IsAsciiLetter(s[0]) then 1 else 0) + LetterCount(s[1..])
  }

  /** The enclosed letters are in the Basic Multilingual Plane: Bubbles keeps the length. */
  lemma {:induction false} BubblesKeepsLength(s: Utf16)
    ensures |Transform(Bubbles, s)| == |s|
    decreases |s|
  {
    if s != [] {
      BubblesKeepsLength(s[1..]);
    }
  }

  /** The bold and monospace letters are outside it: each letter costs one extra code unit. */
  lemma {:induction false} AstralTableLength(t: Table, s: Utf16)
    requires t == BoldSans || t == Monospace
    ensures |Transform(t, s)| == |s| + LetterCount(s)
    decreases |s|
  {
    if s != [] {
      AstralTableLength(t, s[1..]);
    }
  }

  /** The Small Caps table, indexed by the letter's position in the alphabet. */
  const SmallCapsTable: seq<CodeUnit> := [
    0x1D00, 0x0299, 0x1D04, 0x1D05, 0x1D07, 0x0493, 0x0262, 0x029C, 0x026A, 0x1D0A, 0x1D0B, 0x029F, 0x1D0D,
    0x0274, 0x1D0F, 0x1D18, 0x01EB, 0x0280, 0x0073, 0x1D1B, 0x1D1C, 0x1D20, 0x1D21, 0x0078, 0x028F, 0x1D22]

  function LowerUnit(c: CodeUnit): CodeUnit {
    if IsAsciiUpper(c) then c + 0x20 else c
  }

  /**
   One unit of Small Caps: a letter, in either case, becomes the small capital
   of its lower-case form; anything else is upper-cased, which with case
   mapping restricted to ASCII leaves it unchanged.
   */
  function SmallCapsUnit(c: CodeUnit): (r: CodeUnit)
    ensures IsAsciiLetter(c) ==> r == SmallCapsTable[LowerUnit(c) - 0x61]
    ensures !IsAsciiLetter(c) ==> r == c
    ensures IsAsciiLetter(r) ==> r == 0x73 || r == 0x78
  {
    // Every lower-case letter has a table entry, so `toUpperCase` only ever sees non-letters.
    if IsAsciiLetter(c) then SmallCapsTable[LowerUnit(c) - 0x61] else c
  }

  /** `toSmallCaps`: one small capital per code unit. */
  function SmallCaps(s: Utf16): (r: Utf16)
    ensures |r| == |s|
    ensures forall k :: 0 <= k < |s| ==> r[k] == SmallCapsUnit(s[k])
  {
    seq(|s|, k requires 0 <= k < |s| => SmallCapsUnit(s[k]))
  }

  /** Small Caps ignores the case of ASCII letters; `s`, `S`, `x` and `X` come out as plain `s` and `x`. */
  lemma SmallCapsCaseInsensitive(s: Utf16)
    ensures SmallCaps(s) == SmallCaps(seq(|s|, k requires 0 <= k < |s| => LowerUnit(s[k])))
    ensures SmallCapsUnit(0x53) == 0x73 && SmallCapsUnit(0x73) == 0x73
    ensures SmallCapsUnit(0x58) == 0x78 && SmallCapsUnit(0x78) == 0x78
  {
  }

  /** The only ASCII letters Small Caps emits are `s` and `x`. */
  lemma SmallCapsLetters(s: Utf16)
    ensures forall k :: 0 <= k < |s| && IsAsciiLetter(SmallCaps(s)[k]) ==>
              SmallCaps(s)[k] == 0x73 || SmallCaps(s)[k] == 0x78
  {
  }

  /** The Wide style: a space between every two code units. */
  function Wide(s: Utf16): (r: Utf16)
    ensures |s| == 0 ==> r == []
    ensures |s| >= 1 ==> |r| == 2 * |s| - 1
    ensures forall k :: 0 <= k < |r| && k % 2 == 0 ==> r[k] == s[k / 2]
    ensures forall k :: 0 <= k < |r| && k % 2 == 1 ==> r[k] == Space
    decreases |s|
  {
    if |s| <= 1 then s
    else
      var rest := Wide(s[1..]);
      var r := [s[0], Space] + rest;
      assert forall k :: 2 <= k < |r| ==> r[k] == rest[k - 2];
      assert forall k :: 2 <= k < |r| && k % 2 == 0 ==> (k - 2) / 2 == k / 2 - 1;
      r
  }

  /** Reading every other code unit of the Wide text gives back the input. */
  lemma WideRoundTrip(s: Utf16)
    ensures var w := Wide(s); seq((|w| + 1) / 2, i requires 0 <= i < (|w| + 1) / 2 => w[2 * i]) == s
  {
    var w := Wide(s);
    var back := seq((|w| + 1) / 2, i requires 0 <= i < (|w| + 1) / 2 => w[2 * i]);
    assert |back| == |s|;
    forall i | 0 <= i < |s|
      ensures back[i] == s[i]
    {
      assert (2 * i) % 2 == 0 && (2 * i) / 2 == i;
    }
  }

  /** The Squares style: each code unit wrapped as `[c]`. */
  function Squares(s: Utf16): (r: Utf16)
    ensures |r| == 3 * |s|
    ensures forall i :: 0 <= i < |s| ==> r[3 * i..3 * i + 3] == [OpenBracket, s[i], CloseBracket]
    decreases |s|
  {
    if s == [] then []
    else
      var rest := Squares(s[1..]);
      var r := [OpenBracket, s[0], CloseBracket] + rest;
      assert forall i :: 1 <= i < |s| ==> r[3 * i..3 * i + 3] == rest[3 * (i - 1)..3 * (i - 1) + 3];
      r
  }

  /** Taking the middle of every bracketed triple gives back the input. */
  lemma SquaresRoundTrip(s: Utf16)
    ensures var q := Squares(s); seq(|q| / 3, i requires 0 <= i < |q| / 3 => q[3 * i + 1]) == s
  {
    var q := Squares(s);
    var back := seq(|q| / 3, i requires 0 <= i < |q| / 3 => q[3 * i + 1]);
    forall i | 0 <= i < |s|
      ensures back[i] == s[i]
    {
      assert q[3 * i..3 * i + 3][1] == s[i];
    }
  }

  /** The Upside Down style: the code units in reverse order. */
  function UpsideDown(s: Utf16): (r: Utf16)
    ensures |r| == |s|
    ensures forall k :: 0 <= k < |s| ==> r[k] == s[|s| - 1 - k]
    decreases |s|
  {
    if s == [] then [] else UpsideDown(s[1..]) + [s[0]]
  }

  /** Turning the text upside down twice gives it back. */
  lemma UpsideDownInvolution(s: Utf16)
    ensures UpsideDown(UpsideDown(s)) == s
  {
  }
}

=== FILE: files.dfy ===
/** A file chosen in a browser file input or dropped on a drop zone. */
module Files {
  /** The name and MIME type (`File.type`) of a chosen file; its contents are not modelled. */
  datatype File = File(name: string, mimeType: string)
}

=== FILE: navbar.dfy ===
/**
 The site navigation bar: the mock sign-in and sign-out, the notification
 list with its unread counter and "mark all as read", the admin link, and
 the highlighting of the current page's link.
 */
module Navbar {
  import opened Options
  import Seqs

  datatype NotificationType = Sale | Approval | Rejection | Withdrawal

  datatype Notification = Notification(id: int, kind: NotificationType, message: string, time: string, read: bool)

  /** The signed-in user as the bar stores it. */
  datatype SessionUser = SessionUser(handle: string, name: string, avatar: string, isAdmin: bool)

  /** The bar's state; `path` is the router's current pathname. */
  datatype Nav = Nav(user: Option<SessionUser>, userDropdownOpen: bool, notificationsOpen: bool,
                     mobileMenuOpen: bool, notifications: seq<Notification>, path: string)

  const MockUser := SessionUser("NeonDreams", "Neon Dreams Studio", "https://picsum.photos/seed/user1/150/150", true)

  const InitialNotifications := [
    Notification(1, Sale, "You just sold 'Cyberpunk Neon' for €15.00!", "5 mins ago", false),
    Notification(2, Approval, "Your artwork 'Ethereal Forest' has been approved and is now Live.", "2 hours ago", false),
    Notification(3, Rejection, "Your artwork 'Test Art' was rejected. Reason: Poor quality.", "1 day ago", true),
    Notification(4, Withdrawal, "Your payout of €50.00 has been processed.", "2 days ago", true),
    Notification(5, Sale, "You just sold 'Retro Wave' for €12.00!", "3 days ago", true)
  ]

  const NavPaths := ["/", "/marketplace", "/tools", "/themes", "/pricing"]

  // ---------------------------------------------------------------- notifications

  /** The number on the bell: the length of the list of unread notifications. */
  function UnreadCount(ns: seq<Notification>): (n: nat)
    ensures n <= |ns|
    ensures n == 0 <==> forall i :: 0 <= i < |ns| ==> ns[i].read
    ensures n == Seqs.Count(ns, (x: Notification) => !x.read)
  {
    Seqs.FilterLength(ns, (x: Notification) => !x.read);
    |Seqs.Filter(ns, (x: Notification) => !x.read)|
  }

  /** Every notification becomes read; nothing else about any of them changes. */
  function MarkAllAsRead(ns: seq<Notification>): (r: seq<Notification>)
    ensures |r| == |ns|
    ensures forall i :: 0 <= i < |r| ==> r[i].read && r[i].(read := ns[i].read) == ns[i]
    ensures UnreadCount(r) == 0
  {
    seq(|ns|, i requires 0 <= i < |ns| => ns[i].(read := true))
  }

  /** Marking everything read a second time changes nothing. */
  lemma MarkAllAsReadIdempotent(ns: seq<Notification>)
    ensures MarkAllAsRead(MarkAllAsRead(ns)) == MarkAllAsRead(ns)
  {
  }

  /** The bar starts with two unread notifications. */
  lemma InitialUnreadCount()
    ensures UnreadCount(InitialNotifications) == 2
  {
    var p := (x: Notification) => !x.read;
    var ns := InitialNotifications;
    assert ns[1..][1..] == ns[2..];
    assert Seqs.Count(ns[2..], p) == 0;
  }

  // ---------------------------------------------------------------- session

  /** The mock sign-in stores an administrator and goes to that creator's page. */
  function MockLogin(nav: Nav): (r: Nav)
    ensures r.user == Some(MockUser) && r.user.value.isAdmin
    ensures r.path == "/creator/" + MockUser.handle
    ensures r.notifications == nav.notifications
    ensures r.userDropdownOpen == nav.userDropdownOpen && r.notificationsOpen == nav.notificationsOpen
  {
    nav.(user := Some(MockUser), path := "/creator/NeonDreams")
  }

  /** Signing out forgets the user, closes both drop-downs and goes home. */
  function Logout(nav: Nav): (r: Nav)
    ensures r.user.None? && !r.userDropdownOpen && !r.notificationsOpen
    ensures r.path == "/"
    ensures r.notifications == nav.notifications && r.mobileMenuOpen == nav.mobileMenuOpen
  {
    nav.(user := None, userDropdownOpen := false, notificationsOpen := false, path := "/")
  }

  /** The user menu offers the admin panel exactly to a signed-in administrator. */
  predicate ShowsAdminLink(nav: Nav) {
    nav.user.Some? && nav.user.value.isAdmin
  }

  /** The mock sign-in grants the admin link and signing out withdraws it. */
  lemma AdminLinkFollowsSession(nav: Nav)
    ensures ShowsAdminLink(MockLogin(nav))
    ensures !ShowsAdminLink(Logout(nav))
    ensures !ShowsAdminLink(Logout(MockLogin(nav)))
  {
  }

  // ---------------------------------------------------------------- links

  /**
   A link is highlighted exactly when the current path is its path: a
   page below it, such as `/marketplace/item`, highlights nothing, and while
   one of the bar's links is highlighted no other link's path is current.
   */
  function IsActive(nav: Nav, linkPath: string): (b: bool)
    ensures nav.path == linkPath ==> b
    ensures |nav.path| != |linkPath| ==> !b
    ensures b ==> forall k :: 0 <= k < |NavPaths| && NavPaths[k] != linkPath ==> nav.path != NavPaths[k]
  {
    nav.path == linkPath
  }

  /** On one of the bar's pages, exactly that page's link is highlighted. */
  lemma ExactlyOneActiveOnBarPage(nav: Nav, i: nat)
    requires i < |NavPaths| && nav.path == NavPaths[i]
    ensures IsActive(nav, NavPaths[i])
    ensures forall j :: 0 <= j < |NavPaths| && j != i ==> !IsActive(nav, NavPaths[j])
  {
    forall j | 0 <= j < |NavPaths| && j != i
      ensures !IsActive(nav, NavPaths[j])
    {
      if i < j { AtMostOneActive(nav, i, j); } else { AtMostOneActive(nav, j, i); }
    }
  }

  /** At most one of the bar's links is highlighted at a time. */
  lemma AtMostOneActive(nav: Nav, i: nat, j: nat)
    requires i < j < |NavPaths|
    ensures !(IsActive(nav, NavPaths[i]) && IsActive(nav, NavPaths[j]))
  {
  }
}

=== FILE: options.dfy ===
/** The absent-or-present value used throughout the model in place of JavaScript's `null`/`undefined`. */
module Options {

  datatype Option<+T> = None | Some(value: T) {

    /** The present value, or `default` when there is none (JavaScript's `x ?? default`). */
    function GetOr(default: T): T {
      match this
      case Some(v) => v
      case None => default
    }
  }
}

=== FILE: profile_preview.dfy ===
/**
 Rules shared by the three Steam profile simulators (the dressing room, the
 advanced dressing room and the advanced cropper): which URLs are played as
 video, the zoom buttons, the Steam-level colour bands and the upload of a
 chosen file into one slot of the simulated profile.
 */
module ProfilePreview {
  import opened Options
  import opened Strings

  // ---------------------------------------------------------------- media type

  /** A background or artwork URL is played as video when it ends in `.webm` or `.mp4`. */
  function IsVideo(url: string): (b: bool)
    ensures b <==> (exists p :: url == p + ".webm") || (exists p :: url == p + ".mp4")
  {
    EndsWithIffAppend(url, ".webm");
    EndsWithIffAppend(url, ".mp4");
    EndsWith(url, ".webm") || EndsWith(url, ".mp4")
  }

  /** The background every simulator starts with. */
  const DefaultBackground := "https://picsum.photos/seed/steam_bg/1920/1080"

  /** The starting background is a still image. */
  lemma DefaultBackgroundIsImage()
    ensures !IsVideo(DefaultBackground)
  {
  }

  // ---------------------------------------------------------------- zoom

  const MinZoom := 50
  const MaxZoom := 150
  const ZoomStep := 10
  const InitialZoom := 100

  /** The zoom-in button: ten percent more, capped at 150. */
  function ZoomIn(z: int): (r: int)
    ensures r <= MaxZoom
    ensures z <= MaxZoom ==> z <= r
    ensures r == z + ZoomStep || r == MaxZoom
    ensures z + ZoomStep <= MaxZoom ==> r == z + ZoomStep
    ensures z + ZoomStep >= MaxZoom ==> r == MaxZoom
  {
    if z + ZoomStep < MaxZoom then z + ZoomStep else MaxZoom
  }

  /** The zoom-out button: ten percent less, floored at 50. */
  function ZoomOut(z: int): (r: int)
    ensures MinZoom <= r
    ensures MinZoom <= z ==> r <= z
    ensures r == z - ZoomStep || r == MinZoom
    ensures MinZoom <= z - ZoomStep ==> r == z - ZoomStep
    ensures z - ZoomStep <= MinZoom ==> r == MinZoom
  {
    if z - ZoomStep > MinZoom then z - ZoomStep else MinZoom
  }

  /** The zoom levels the buttons can show. */
  ghost predicate ZoomReachable(z: int) {
    MinZoom <= z <= MaxZoom && z % ZoomStep == 0
  }

  datatype ZoomClick = In | Out

  /** The zoom after a sequence of button clicks. */
  function ApplyClicks(z: int, clicks: seq<ZoomClick>): int
    decreases |clicks|
  {
    if clicks == [] then z
    else ApplyClicks(if clicks[0] == In then ZoomIn(z) else ZoomOut(z), clicks[1..])
  }

  /** From a reachable zoom, any sequence of clicks stays within 50..150 in steps of ten. */
  lemma {:induction false} ClicksStayReachable(z: int, clicks: seq<ZoomClick>)
    requires ZoomReachable(z)
    ensures ZoomReachable(ApplyClicks(z, clicks))
    decreases |clicks|
  {
    if clicks != [] {
      ClicksStayReachable(if clicks[0] == In then ZoomIn(z) else ZoomOut(z), clicks[1..]);
    }
  }

  function Repeat(c: ZoomClick, k: nat): (r: seq<ZoomClick>)
    ensures |r| == k
    ensures forall i :: 0 <= i < k ==> r[i] == c
  {
    if k == 0 then [] else [c] + Repeat(c, k - 1)
  }

  lemma {:induction false} RepeatedZoomIn(z: int, k: nat)
    requires z + ZoomStep * k <= MaxZoom
    ensures ApplyClicks(z, Repeat(In, k)) == z + ZoomStep * k
    decreases k
  {
    if k > 0 {
      assert Repeat(In, k)[1..] == Repeat(In, k - 1);
      RepeatedZoomIn(z + ZoomStep, k - 1);
    }
  }

  lemma {:induction false} RepeatedZoomOut(z: int, k: nat)
    requires MinZoom <= z - ZoomStep * k
    ensures ApplyClicks(z, Repeat(Out, k)) == z - ZoomStep * k
    decreases k
  {
    if k > 0 {
      assert Repeat(Out, k)[1..] == Repeat(Out, k - 1);
      RepeatedZoomOut(z - ZoomStep, k - 1);
    }
  }

  /**
   The zoom levels shown are exactly 50, 60, ..., 150: every click sequence
   from the initial 100% lands on one, and each one is reached by some clicks.
   */
  lemma ZoomLevelsFromInitial(z: int)
    ensures ZoomReachable(z) <==> exists clicks :: ApplyClicks(InitialZoom, clicks) == z
  {
    if ZoomReachable(z) {
      if z >= InitialZoom {
        RepeatedZoomIn(InitialZoom, (z - InitialZoom) / ZoomStep);
        assert ApplyClicks(InitialZoom, Repeat(In, (z - InitialZoom) / ZoomStep)) == z;
      } else {
        RepeatedZoomOut(InitialZoom, (InitialZoom - z) / ZoomStep);
        assert ApplyClicks(InitialZoom, Repeat(Out, (InitialZoom - z) / ZoomStep)) == z;
      }
    }
    if exists clicks :: ApplyClicks(InitialZoom, clicks) == z {
      var clicks :| ApplyClicks(InitialZoom, clicks) == z;
      ClicksStayReachable(InitialZoom, clicks);
    }
  }

  // ---------------------------------------------------------------- level bands

  /** The lower bounds of the Steam-level colour bands, tested highest first. */
  const BandFloors := [100, 50, 30, 20, 10]

  /**
   The colour band of a Steam level: the index of the first floor the level
   reaches, or 5 when it reaches none of them.
   */
  function Band(level: int): (b: nat)
    ensures b <= |BandFloors|
    ensures b < |BandFloors| ==> level >= BandFloors[b]
    ensures forall j :: 0 <= j < b ==> level < BandFloors[j]
  {
    if level >= 100 then 0
    else if level >= 50 then 1
    else if level >= 30 then 2
    else if level >= 20 then 3
    else if level >= 10 then 4
    else 5
  }

  /** The bands are ordered: a higher level never falls in a lower band. */
  lemma BandMonotone(a: int, b: int)
    requires a <= b
    ensures Band(b) <= Band(a)
  {
  }

  /** The level-badge classes of the two advanced simulators, by band. */
  const AdvancedPalette := [
    "border-[#9b59b6] text-[#9b59b6] shadow-[0_0_10px_#9b59b6]",
    "border-[#8e44ad] text-[#8e44ad]",
    "border-[#f1c40f] text-[#f1c40f]",
    "border-[#2ecc71] text-[#2ecc71]",
    "border-[#e74c3c] text-[#e74c3c]",
    "border-[#95a5a6] text-[#95a5a6]"
  ]

  /**
   `getLevelColor` of both advanced simulators (the two components define
   it identically): the badge classes, tested from the highest band down.
   */
  function LevelColor(level: int): (r: string)
    ensures r == AdvancedPalette[Band(level)]
  {
    if level >= 100 then "border-[#9b59b6] text-[#9b59b6] shadow-[0_0_10px_#9b59b6]"
    else if level >= 50 then "border-[#8e44ad] text-[#8e44ad]"
    else if level >= 30 then "border-[#f1c40f] text-[#f1c40f]"
    else if level >= 20 then "border-[#2ecc71] text-[#2ecc71]"
    else if level >= 10 then "border-[#e74c3c] text-[#e74c3c]"
    else "border-[#95a5a6] text-[#95a5a6]"
  }

  /** Levels in the same band get the same badge, levels in different bands different ones. */
  lemma LevelColorFollowsBand(a: int, b: int)
    ensures LevelColor(a) == LevelColor(b) <==> Band(a) == Band(b)
  {
  }

  // ---------------------------------------------------------------- uploads

  /** Where the next chosen file goes. */
  datatype Target = Avatar | Background | ArtworkMain | ArtworkSide | WorkshopSlot(index: nat)

  /**
   The images of the simulated profile. A workshop slot is `None` while empty;
   slots past the end of the JavaScript array read as empty too.
   */
  datatype Assets = Assets(avatar: string, background: string, artworkMain: Option<string>,
                           artworkSide: Option<string>, workshop: seq<Option<string>>)

  const InitialAssets := Assets("https://picsum.photos/seed/user/150/150", DefaultBackground, None, None,
                                [None, None, None, None, None])

  /**
   JavaScript's `items[i] = url` on a copy of the array: inside the array it
   replaces one slot; past the end it grows the array to `i + 1`, the new
   slots before `i` being empty holes.
   */
  function SetSlot(items: seq<Option<string>>, i: nat, url: string): (r: seq<Option<string>>)
    ensures |r| == if i < |items| then |items| else i + 1
    ensures r[i] == Some(url)
    ensures forall j :: 0 <= j < |r| && j != i ==> r[j] == if j < |items| then items[j] else None
  {
    if i < |items| then items[i := Some(url)]
    else items + seq(i - |items|, _ => None) + [Some(url)]
  }

  /** Filling two different slots gives the same array in either order. */
  lemma SetSlotCommutes(items: seq<Option<string>>, i: nat, u: string, j: nat, v: string)
    requires i != j
    ensures SetSlot(SetSlot(items, i, u), j, v) == SetSlot(SetSlot(items, j, v), i, u)
  {
    var a := SetSlot(SetSlot(items, i, u), j, v);
    var b := SetSlot(SetSlot(items, j, v), i, u);
    assert |a| == |b|;
    forall k | 0 <= k < |a|
      ensures a[k] == b[k]
    {
    }
  }

  /** The object URL of the chosen file goes to the target; every other image stays. */
  function Place(a: Assets, target: Target, url: string): (r: Assets)
    ensures target == Avatar ==> r.avatar == url
    ensures target == Background ==> r.background == url
    ensures target == ArtworkMain ==> r.artworkMain == Some(url)
    ensures target == ArtworkSide ==> r.artworkSide == Some(url)
    ensures target != Avatar ==> r.avatar == a.avatar
    ensures target != Background ==> r.background == a.background
    ensures target != ArtworkMain ==> r.artworkMain == a.artworkMain
    ensures target != ArtworkSide ==> r.artworkSide == a.artworkSide
    ensures !target.WorkshopSlot? ==> r.workshop == a.workshop
    ensures target.WorkshopSlot? ==> r.workshop == SetSlot(a.workshop, target.index, url)
  {
    match target
    case Avatar => a.(avatar := url)
    case Background => a.(background := url)
    case ArtworkMain => a.(artworkMain := Some(url))
    case ArtworkSide => a.(artworkSide := Some(url))
    case WorkshopSlot(i) => a.(workshop := SetSlot(a.workshop, i, url))
  }

  /**
   The file input's change handler of the advanced simulators: with a file and
   a target it places the file's URL there; without either nothing changes.
   */
  function Upload(a: Assets, hasFile: bool, target: Option<Target>, url: string): (r: Assets)
    ensures !hasFile || target.None? ==> r == a
    ensures hasFile && target.Some? ==> r == Place(a, target.value, url)
  {
    if hasFile && target.Some? then Place(a, target.value, url) else a
  }

  /** Uploads to different targets do not interfere: their order does not matter. */
  lemma PlaceCommutes(a: Assets, s: Target, u: string, t: Target, v: string)
    requires s != t
    ensures Place(Place(a, s, u), t, v) == Place(Place(a, t, v), s, u)
  {
    if s.WorkshopSlot? && t.WorkshopSlot? {
      SetSlotCommutes(a.workshop, s.index, u, t.index, v);
    }
  }
}

=== FILE: seqs.dfy ===
/**
 Sequence helpers shared by the list-editing rules of the user interface:
 order-preserving filtering (JavaScript's `Array.prototype.filter`), counting,
 and the subsequence relation used to state that a filter only drops items.
 */
module Seqs {

  /** Keeps the elements of `xs` that satisfy `p`, in their original order. */
  function Filter<T>(xs: seq<T>, p: T -> bool): (r: seq<T>)
    ensures |r| <= |xs|
    ensures forall i :: 0 <= i < |r| ==> r[i] in xs && p(r[i])
    ensures forall i :: 0 <= i < |xs| && p(xs[i]) ==> xs[i] in r
    decreases |xs|
  {
    if xs == [] then []
    else
      var rest := Filter(xs[1..], p);
      assert forall i :: 1 <= i < |xs| ==> xs[i] == xs[1..][i - 1];
      if p(xs[0]) then [xs[0]] + rest else rest
  }

  /** The number of elements of `xs` that satisfy `p`. */
  function Count<T>(xs: seq<T>, p: T -> bool): (n: nat)
    ensures n <= |xs|
    ensures n == 0 <==> forall i :: 0 <= i < |xs| ==> !p(xs[i])
    ensures n == |xs| <==> forall i :: 0 <= i < |xs| ==> p(xs[i])
    decreases |xs|
  {
    if xs == [] then 0
    else
      var rest := Count(xs[1..], p);
      assert forall i :: 1 <= i < |xs| ==> xs[i] == xs[1..][i - 1];
      (if p(xs[0]) then 1 else 0) + rest
  }

  /** `a` can be obtained from `b` by deleting elements, keeping the order of the rest. */
  ghost predicate IsSubsequence<T>(a: seq<T>, b: seq<T>)
    decreases |b|
  {
    if a == [] then true
    else if b == [] then false
    else if a[0] == b[0] then IsSubsequence(a[1..], b[1..])
    else IsSubsequence(a, b[1..])
  }

  /** Filtering only deletes: the result is a subsequence of the input. */
  lemma {:induction false} FilterIsSubsequence<T>(xs: seq<T>, p: T -> bool)
    ensures IsSubsequence(Filter(xs, p), xs)
    decreases |xs|
  {
    if xs != [] {
      FilterIsSubsequence(xs[1..], p);
      var rest := Filter(xs[1..], p);
      if !p(xs[0]) {
        SubsequenceDropHead(rest, xs);
      }
    }
  }

  /** A subsequence of the tail of `b` is a subsequence of `b`. */
  lemma {:induction false} SubsequenceDropHead<T>(a: seq<T>, b: seq<T>)
    requires b != []
    requires IsSubsequence(a, b[1..])
    ensures IsSubsequence(a, b)
    decreases |b|, 0
  {
    if a != [] && a[0] == b[0] {
      // The greedy match consumes b[0]; a[1..] is still a subsequence of b[1..].
      SubsequenceTail(a, b[1..]);
    }
  }

  /** Dropping the head of a non-empty subsequence keeps it a subsequence. */
  lemma {:induction false} SubsequenceTail<T>(a: seq<T>, b: seq<T>)
    requires a != []
    requires IsSubsequence(a, b)
    ensures IsSubsequence(a[1..], b)
    decreases |b|, 1
  {
    if b != [] {
      if a[0] == b[0] {
        SubsequenceDropHead(a[1..], b);
      } else {
        SubsequenceTail(a, b[1..]);
        SubsequenceDropHead(a[1..], b);
      }
    }
  }

  /** When every element passes, filtering returns the input unchanged. */
  lemma {:induction false} FilterKeepsAll<T>(xs: seq<T>, p: T -> bool)
    requires forall i :: 0 <= i < |xs| ==> p(xs[i])
    ensures Filter(xs, p) == xs
    decreases |xs|
  {
    if xs != [] {
      FilterKeepsAll(xs[1..], p);
    }
  }

  /** Filtering distributes over concatenation. */
  lemma {:induction false} FilterAppend<T>(a: seq<T>, b: seq<T>, p: T -> bool)
    ensures Filter(a + b, p) == Filter(a, p) + Filter(b, p)
    decreases |a|
  {
    if a != [] {
      assert (a + b)[0] == a[0];
      assert (a + b)[1..] == a[1..] + b;
      FilterAppend(a[1..], b, p);
      if p(a[0]) {
        assert Filter(a + b, p) == [a[0]] + Filter(a[1..] + b, p);
      } else {
        assert Filter(a + b, p) == Filter(a[1..] + b, p);
      }
    } else {
      assert a + b == b;
    }
  }

  /** The length of a filter is the count of elements that pass. */
  lemma {:induction false} FilterLength<T>(xs: seq<T>, p: T -> bool)
    ensures |Filter(xs, p)| == Count(xs, p)
    decreases |xs|
  {
    if xs != [] {
      FilterLength(xs[1..], p);
    }
  }

  /** The elements that pass `p` and those that fail it together make up `xs`, with multiplicity. */
  lemma {:induction false} FilterPartition<T>(xs: seq<T>, p: T -> bool, q: T -> bool)
    requires forall x :: q(x) == !p(x)
    ensures multiset(Filter(xs, p)) + multiset(Filter(xs, q)) == multiset(xs)
    ensures |Filter(xs, p)| + |Filter(xs, q)| == |xs|
    decreases |xs|
  {
    if xs != [] {
      FilterPartition(xs[1..], p, q);
      assert xs == [xs[0]] + xs[1..];
    }
  }

  /** Filters by predicates that agree on every element give the same result. */
  lemma {:induction false} FilterCongruent<T>(xs: seq<T>, p: T -> bool, q: T -> bool)
    requires forall i :: 0 <= i < |xs| ==> p(xs[i]) == q(xs[i])
    ensures Filter(xs, p) == Filter(xs, q)
    decreases |xs|
  {
    if xs != [] {
      assert forall i :: 1 <= i < |xs| ==> xs[i] == xs[1..][i - 1];
      FilterCongruent(xs[1..], p, q);
    }
  }
}

=== FILE: steam_callback.dfy ===
/**
 The return half of "Sign in with Steam" (`GET /api/auth/callback`): the
 relying party re-posts the provider's assertion as a `check_authentication`
 request (section 11.4.2 of OpenID Authentication 2.0), extracts the Steam id
 from `openid.claimed_id`, finds or creates the user, and issues a seven-day
 session cookie.

 Steam, the Steam Web API, the users table and the JWT signer are not
 modelled; they enter as the `Services` functions and the `Database` values,
 and the handler reports, in order, every call it made to them, signing included.
 */
module SteamCallback {
  import opened Options
  import opened Strings
  import opened UrlQuery

  /** The marker whose presence in Steam's reply confirms the assertion. */
  const ValidMarker := "is_valid:true"
  /** The literal part of the claimed-id pattern `https://steamcommunity.com/openid/id/(\d+)`. */
  const ClaimedIdPrefix := "https://steamcommunity.com/openid/id/"
  /** Seven days, in seconds: the token lifetime and the cookie's Max-Age. */
  const SessionMaxAge: nat := 7 * 24 * 60 * 60

  // ---------------------------------------------------------------------------
  // Extracting the Steam id: an unanchored match of the claimed-id pattern.
  // `\d` without the `u` flag is the ASCII digits.
  // ---------------------------------------------------------------------------

  /** The length of the run of digits starting at index `i`. */
  function DigitRun(s: string, i: nat): (n: nat)
    requires i <= |s|
    ensures i + n <= |s|
    ensures forall k :: i <= k < i + n ==> IsDigit(s[k])
    ensures i + n == |s| || !IsDigit(s[i + n])
    decreases |s| - i
  {
    if i < |s| && IsDigit(s[i]) then 1 + DigitRun(s, i + 1) else 0
  }

  /** The pattern matches starting at `i`: the literal prefix, then at least one digit. */
  ghost predicate MatchStartsAt(s: string, i: int) {
    OccursAt(s, ClaimedIdPrefix, i) && i + |ClaimedIdPrefix| < |s| && IsDigit(s[i + |ClaimedIdPrefix|])
  }

  /**
   `id` is what the capture group holds for the leftmost match, which starts
   at `i`: the prefix followed by `id` occurs at `i`, no match starts earlier,
   and `id` is the whole run of digits after the prefix (the `+` is greedy).
   */
  ghost predicate IsLeftmostCapture(s: string, i: int, id: string) {
    && MatchStartsAt(s, i)
    && (forall j :: 0 <= j < i ==> !MatchStartsAt(s, j))
    && OccursAt(s, ClaimedIdPrefix + id, i)
    && |id| >= 1
    && (forall k :: 0 <= k < |id| ==> IsDigit(id[k]))
    && (i + |ClaimedIdPrefix| + |id| == |s| || !IsDigit(s[i + |ClaimedIdPrefix| + |id|]))
  }

  /** The first index at or after `from` where the pattern matches. */
  function FindMatch(s: string, from: nat): (r: Option<nat>)
    ensures r.Some? ==> from <= r.value && MatchStartsAt(s, r.value)
    ensures r.Some? ==> forall j :: from <= j < r.value ==> !MatchStartsAt(s, j)
    ensures r.None? ==> forall j :: from <= j ==> !MatchStartsAt(s, j)
    decreases |s| - from
  {
    if from + |ClaimedIdPrefix| >= |s| then None
    else if s[from..from + |ClaimedIdPrefix|] == ClaimedIdPrefix && IsDigit(s[from + |ClaimedIdPrefix|]) then Some(from)
    else FindMatch(s, from + 1)
  }

  /** `claimed.match(pattern)?.[1]`: the digits captured by the leftmost match, kept as a string. */
  function SteamIdOf(claimed: string): (r: Option<string>)
    ensures r.Some? <==> exists i :: MatchStartsAt(claimed, i)
    ensures r.Some? ==> exists i :: IsLeftmostCapture(claimed, i, r.value)
  {
    match FindMatch(claimed, 0)
    case None => None
    case Some(i) =>
      var start := i + |ClaimedIdPrefix|;
      var id := claimed[start..start + DigitRun(claimed, start)];
      assert claimed[i..start + |id|] == ClaimedIdPrefix + id;
      assert IsLeftmostCapture(claimed, i, id);
      Some(id)
  }

  /** A maximal run of digits starting at `start` is the one `DigitRun` measures. */
  lemma {:induction false} MaximalRunIsDigitRun(s: string, start: nat, n: nat)
    requires start + n <= |s|
    requires forall k :: start <= k < start + n ==> IsDigit(s[k])
    requires start + n == |s| || !IsDigit(s[start + n])
    ensures DigitRun(s, start) == n
    decreases n
  {
    if n > 0 {
      MaximalRunIsDigitRun(s, start + 1, n - 1);
    }
  }

  /** A leftmost capture is the whole run of digits after the prefix. */
  lemma CaptureIsDigitRun(s: string, i: int, a: string)
    requires IsLeftmostCapture(s, i, a)
    ensures i + |ClaimedIdPrefix| + |a| <= |s|
    ensures a == s[i + |ClaimedIdPrefix|..i + |ClaimedIdPrefix| + |a|]
    ensures DigitRun(s, i + |ClaimedIdPrefix|) == |a|
  {
    var p := |ClaimedIdPrefix|;
    assert s[i..i + p + |a|][p..] == a;
    assert forall k :: i + p <= k < i + p + |a| ==> s[k] == a[k - (i + p)];
    MaximalRunIsDigitRun(s, i + p, |a|);
  }

  /** The leftmost capture is unique: it pins down both where the match starts and what it captures. */
  lemma LeftmostCaptureUnique(s: string, i: int, a: string, j: int, b: string)
    requires IsLeftmostCapture(s, i, a) && IsLeftmostCapture(s, j, b)
    ensures i == j && a == b
  {
    assert i == j;
    CaptureIsDigitRun(s, i, a);
    CaptureIsDigitRun(s, j, b);
  }

  /** `SteamIdOf` returns exactly the leftmost capture, and nothing when there is no match. */
  lemma SteamIdOfIffLeftmostCapture(claimed: string, id: string)
    ensures SteamIdOf(claimed) == Some(id) <==> exists i :: IsLeftmostCapture(claimed, i, id)
  {
    if exists i :: IsLeftmostCapture(claimed, i, id) {
      var i :| IsLeftmostCapture(claimed, i, id);
      assert SteamIdOf(claimed).Some?;
      var j :| IsLeftmostCapture(claimed, j, SteamIdOf(claimed).value);
      LeftmostCaptureUnique(claimed, i, id, j, SteamIdOf(claimed).value);
    }
  }

  // ---------------------------------------------------------------------------
  // The handler's collaborators and results.
  // ---------------------------------------------------------------------------

  /** A row of the users table (`User` in the Cloudflare type declarations). */
  datatype User = User(id: nat, steamId: string, username: string, avatar: string, createdAt: string)

  /** The users table, keyed by `steam_id`. */
  type Directory = map<string, User>

  /** Every row is stored under its own Steam id. */
  ghost predicate KeyedBySteamId(users: Directory) {
    forall k :: k in users ==> users[k].steamId == k
  }

  /** The first entry of a `GetPlayerSummaries` reply. */
  datatype Player = Player(personaName: string, avatarFull: string)

  /**
   The payload of the session token: the subject, the Steam id, and the
   registered `iat` and `exp` times, in seconds since the epoch.
   */
  datatype Claims = Claims(sub: string, steamId: string, issuedAt: nat, expiresAt: nat)

  /** The environment bindings `STEAM_API_KEY` and `JWT_SECRET`, each absent or set. */
  datatype Config = Config(steamApiKey: Option<string>, jwtSecret: Option<string>)

  /** A binding counts as present when it is set to a non-empty string (JavaScript truthiness). */
  predicate IsSet(v: Option<string>) {
    v.Some? && v.value != ""
  }

  /**
   The users table together with what an insert would produce: the id and
   creation time the database assigns, and whether `INSERT ... RETURNING *`
   hands back the row.
   */
  datatype Database = Database(users: Directory, nextId: nat, now: string, insertReturnsRow: bool)

  /**
   The outside world, as functions of what is sent: the body of Steam's reply
   to the verification POST, the first player of a `GetPlayerSummaries` call
   (API key, Steam id), and the signed token for claims and secret; and the
   clock, in seconds since the epoch, that stamps the token's issue time.
   */
  datatype Services = Services(
    verifyReply: Query -> string,
    playerSummary: (string, string) -> Option<Player>,
    sign: (Claims, string) -> string,
    clock: nat)

  /** A call the handler makes to the outside world, in the order made. */
  datatype Effect =
    | PostVerification(body: Query)
    | LookupUser(steamId: string)
    | FetchProfile(steamId: string)
    | InsertUser(row: User)
    | SignToken(claims: Claims)

  datatype Response =
    | Plain(code: int, body: string)
    | Found(location: string, setCookie: string)
  {
    function Status(): int {
      if Plain? then code else 302
    }
  }

  datatype Outcome = Outcome(response: Response, users: Directory, effects: seq<Effect>)

  // ---------------------------------------------------------------------------
  // The steps of the handler.
  // ---------------------------------------------------------------------------

  /**
   The body of the verification POST: every pair of the callback, copied in
   order, with `openid.mode` set to `check_authentication`.
   */
  function VerificationQuery(params: Query): (q: Query)
    ensures Without(q, "openid.mode") == Without(params, "openid.mode")
    ensures Occurrences(q, "openid.mode") == 1
    ensures Get(q, "openid.mode") == Some("check_authentication")
  {
    SetKeepsOthers(params, "openid.mode", "check_authentication");
    SetLeavesOne(params, "openid.mode", "check_authentication");
    Set(params, "openid.mode", "check_authentication")
  }

  /** Steam confirmed the assertion: its reply contains the marker. */
  predicate Verified(params: Query, svc: Services) {
    Includes(svc.verifyReply(VerificationQuery(params)), ValidMarker)
  }

  /** The Steam id the callback claims, when `openid.claimed_id` is present, non-empty and matches. */
  function ClaimedSteamId(params: Query): (r: Option<string>)
    ensures r.Some? ==> |r.value| >= 1 && forall k :: 0 <= k < |r.value| ==> IsDigit(r.value[k])
    ensures r.Some? ==> Get(params, "openid.claimed_id").Some? && SteamIdOf(Get(params, "openid.claimed_id").value) == r
  {
    var claimed := Get(params, "openid.claimed_id");
    if claimed.None? || claimed.value == "" then None else SteamIdOf(claimed.value)
  }

  /**
   The token payload for a user signed at time `now`: its id as a decimal
   string, its Steam id, issued now and expiring seven days later.
   */
  function SessionClaims(user: User, now: nat): (c: Claims)
    ensures forall k :: 0 <= k < |c.sub| ==> IsDigit(c.sub[k])
    ensures ParseDecimal(c.sub) == user.id
    ensures c.steamId == user.steamId
    ensures c.issuedAt == now && c.expiresAt == now + 604800
  {
    DecimalRoundTrip(user.id);
    Claims(Decimal(user.id), user.steamId, now, now + SessionMaxAge)
  }

  /** Tokens signed at different times carry different claims, so they differ unless the signer collides. */
  lemma ClaimsFollowClock(user: User, t1: nat, t2: nat)
    ensures SessionClaims(user, t1) == SessionClaims(user, t2) <==> t1 == t2
  {
    if SessionClaims(user, t1) == SessionClaims(user, t2) {
      assert SessionClaims(user, t1).issuedAt == t1;
    }
  }

  lemma MaxAgeDigits()
    ensures Decimal(SessionMaxAge) == "604800"
  {
    assert Decimal(6) == "6";
    assert Decimal(60) == "60";
    assert Decimal(604) == "604";
    assert Decimal(6048) == "6048";
    assert Decimal(60480) == "60480";
  }

  /** The `Set-Cookie` header carrying the token. */
  function SessionCookie(token: string): (h: string)
    ensures h == "session=" + token + "; HttpOnly; Secure; SameSite=Lax; Path=/; Max-Age=604800"
  {
    MaxAgeDigits();
    "session=" + token + "; HttpOnly; Secure; SameSite=Lax; Path=/; Max-Age=" + Decimal(SessionMaxAge)
  }

  datatype Resolution =
    | Resolved(user: User, users: Directory, effects: seq<Effect>)
    | Failed(response: Response, effects: seq<Effect>)

  /**
   Find the user with this Steam id, or create one from the Steam profile.
   An existing row is used as it is; a new row is inserted only after the API
   key is found present and the profile fetched, and only if the insert hands
   the row back.
   */
  function ResolveUser(steamId: string, config: Config, db: Database, svc: Services): (r: Resolution)
    ensures steamId in db.users ==> r == Resolved(db.users[steamId], db.users, [LookupUser(steamId)])
    ensures r.Resolved? && steamId !in db.users ==>
              && r.user.steamId == steamId
              && r.users == db.users[steamId := r.user]
              && r.effects == [LookupUser(steamId), FetchProfile(steamId), InsertUser(r.user)]
    ensures r.Failed? ==> steamId !in db.users && r.response.Status() == 500
    ensures forall e :: e in r.effects ==> !e.SignToken?
    ensures r.Failed? && !IsSet(config.steamApiKey) ==> r.effects == [LookupUser(steamId)]
    ensures r.Failed? <==>
              (&& steamId !in db.users
               && (|| !IsSet(config.steamApiKey)
                   || svc.playerSummary(config.steamApiKey.value, steamId).None?
                   || !db.insertReturnsRow))
  {
    var lookup := [LookupUser(steamId)];
    if steamId in db.users then Resolved(db.users[steamId], db.users, lookup)
    else if !IsSet(config.steamApiKey) then Failed(Plain(500, "Missing STEAM_API_KEY"), lookup)
    else
      var fetched := lookup + [FetchProfile(steamId)];
      match svc.playerSummary(config.steamApiKey.value, steamId)
      case None => Failed(Plain(500, "Failed to fetch Steam user details"), fetched)
      case Some(player) =>
        var row := User(db.nextId, steamId, player.personaName, player.avatarFull, db.now);
        if !db.insertReturnsRow then Failed(Plain(500, "Failed to create user"), fetched + [InsertUser(row)])
        else Resolved(row, db.users[steamId := row], fetched + [InsertUser(row)])
  }

  /**
   The session step: with the secret configured, a redirect home carrying the
   cookie for a token over the user's claims; without it, a 500.
   */
  function IssueSession(user: User, config: Config, svc: Services): (r: Response)
    ensures r.Found? <==> IsSet(config.jwtSecret)
    ensures r.Plain? ==> r == Plain(500, "Missing JWT_SECRET")
    ensures r.Found? ==> r.location == "/"
                         && r.setCookie == SessionCookie(svc.sign(SessionClaims(user, svc.clock), config.jwtSecret.value))
  {
    if !IsSet(config.jwtSecret) then Plain(500, "Missing JWT_SECRET")
    else
      var token := svc.sign(SessionClaims(user, svc.clock), config.jwtSecret.value);
      Found("/", SessionCookie(token))
  }

  /** The signer call the session step makes: one, over the user's claims at the clock, when the secret is set. */
  function SessionEffects(user: User, config: Config, svc: Services): (e: seq<Effect>)
    ensures IsSet(config.jwtSecret) <==> |e| == 1
    ensures IsSet(config.jwtSecret) ==> e[0] == SignToken(SessionClaims(user, svc.clock))
    ensures !IsSet(config.jwtSecret) ==> e == []
  {
    if IsSet(config.jwtSecret) then [SignToken(SessionClaims(user, svc.clock))] else []
  }

  /** After a resolution that signs nothing, the signer is called exactly when the session step succeeds, and last. */
  lemma SignsLastOnSuccess(user: User, effects: seq<Effect>, config: Config, svc: Services)
    requires forall e :: e in effects ==> !e.SignToken?
    ensures var all := effects + SessionEffects(user, config, svc);
            && ((exists e :: e in all && e.SignToken?) <==> IssueSession(user, config, svc).Found?)
            && (IssueSession(user, config, svc).Found? ==> all[|all| - 1] == SignToken(SessionClaims(user, svc.clock)))
  {
    var all := effects + SessionEffects(user, config, svc);
    if IssueSession(user, config, svc).Found? {
      assert all[|all| - 1] in all;
    } else {
      assert all == effects;
    }
  }

  /** Everything after Steam has confirmed the assertion: extraction, user resolution, session. */
  function AfterVerification(params: Query, config: Config, db: Database, svc: Services): (o: Outcome)
    // 400 exactly when no Steam id can be extracted, before any other call.
    ensures o.response.Status() == 400 <==> ClaimedSteamId(params).None?
    ensures ClaimedSteamId(params).None? ==> o.effects == [] && o.users == db.users
    ensures ClaimedSteamId(params).Some? ==> |o.effects| >= 1 && o.effects[0] == LookupUser(ClaimedSteamId(params).value)
    // A returning user is reused untouched: no profile fetch, no insert.
    ensures ClaimedSteamId(params).Some? && ClaimedSteamId(params).value in db.users ==>
              && o.users == db.users
              && forall e :: e in o.effects ==> !e.FetchProfile? && !e.InsertUser?
    // The table changes only by one new row stored under the extracted id.
    ensures o.users == db.users ||
              (&& ClaimedSteamId(params).Some?
               && var id := ClaimedSteamId(params).value;
                  id !in db.users && id in o.users && o.users[id].steamId == id
                  && o.users == db.users[id := o.users[id]])
    ensures KeyedBySteamId(db.users) ==> KeyedBySteamId(o.users)
    // A missing API key is reported only for a first-time user, and nothing is stored.
    ensures o.response == Plain(500, "Missing STEAM_API_KEY") <==>
              && ClaimedSteamId(params).Some?
              && ClaimedSteamId(params).value !in db.users
              && !IsSet(config.steamApiKey)
    ensures o.response == Plain(500, "Missing STEAM_API_KEY") ==> o.users == db.users
    // The secret is checked after the user is resolved, so a first login without it still inserts.
    ensures o.response == Plain(500, "Missing JWT_SECRET") ==>
              && ClaimedSteamId(params).Some? && !IsSet(config.jwtSecret)
              && var id := ClaimedSteamId(params).value;
                 id in o.users
                 && (id !in db.users ==> o.effects[|o.effects| - 1] == InsertUser(o.users[id]))
    // The two steps: a failed resolution is the response, with the table untouched;
    // a resolved user gets the session step over the table resolution produced.
    ensures ClaimedSteamId(params).Some? ==>
              var r := ResolveUser(ClaimedSteamId(params).value, config, db, svc);
              && (r.Failed? ==> o == Outcome(r.response, db.users, r.effects))
              && (r.Resolved? ==> o == Outcome(IssueSession(r.user, config, svc), r.users,
                                               r.effects + SessionEffects(r.user, config, svc)))
    // Sign-in succeeds exactly when an id is extracted, the user is resolved and the secret is set.
    ensures o.response.Found? <==>
              && ClaimedSteamId(params).Some?
              && ResolveUser(ClaimedSteamId(params).value, config, db, svc).Resolved?
              && IsSet(config.jwtSecret)
    // Every 500 other than the missing secret leaves the table as it was.
    ensures o.response.Status() == 500 && o.response != Plain(500, "Missing JWT_SECRET") ==> o.users == db.users
    // The signer is called exactly on success, as the last call, over the stored user's claims.
    ensures (exists e :: e in o.effects && e.SignToken?) <==> o.response.Found?
    ensures o.response.Found? ==>
              && ClaimedSteamId(params).Some? && ClaimedSteamId(params).value in o.users
              && o.effects[|o.effects| - 1] == SignToken(SessionClaims(o.users[ClaimedSteamId(params).value], svc.clock))
    // Success: a redirect home carrying the session cookie for the stored user.
    ensures o.response.Found? ==>
              && ClaimedSteamId(params).Some? && IsSet(config.jwtSecret)
              && var id := ClaimedSteamId(params).value;
                 id in o.users
                 && o.response.location == "/"
                 && o.response.setCookie == SessionCookie(svc.sign(SessionClaims(o.users[id], svc.clock), config.jwtSecret.value))
  {
    var claimed := Get(params, "openid.claimed_id");
    if claimed.None? || claimed.value == "" then
      Outcome(Plain(400, "Missing claimed_id"), db.users, [])
    else
      match SteamIdOf(claimed.value)
      case None => Outcome(Plain(400, "Invalid Steam ID format"), db.users, [])
      case Some(steamId) =>
        match ResolveUser(steamId, config, db, svc)
        case Failed(response, effects) => Outcome(response, db.users, effects)
        case Resolved(user, users, effects) =>
          SignsLastOnSuccess(user, effects, config, svc);
          Outcome(IssueSession(user, config, svc), users, effects + SessionEffects(user, config, svc))
  }

  /**
   The whole callback: the verification POST comes first, and a reply without
   the marker ends the request with 401 before the claimed id is looked at.
   */
  function HandleCallback(params: Query, config: Config, db: Database, svc: Services): (o: Outcome)
    ensures |o.effects| >= 1 && o.effects[0] == PostVerification(VerificationQuery(params))
    ensures o.response.Status() == 401 <==> !Verified(params, svc)
    ensures !Verified(params, svc) ==> o.effects == [o.effects[0]] && o.users == db.users
    ensures Verified(params, svc) ==>
              var rest := AfterVerification(params, config, db, svc);
              o == Outcome(rest.response, rest.users, [o.effects[0]] + rest.effects)
    ensures o.response.Found? <==> (exists e :: e in o.effects && e.SignToken?)
  {
    var body := VerificationQuery(params);
    if !Includes(svc.verifyReply(body), ValidMarker) then
      Outcome(Plain(401, "Steam authentication failed"), db.users, [PostVerification(body)])
    else
      var rest := AfterVerification(params, config, db, svc);
      Outcome(rest.response, rest.users, [PostVerification(body)] + rest.effects)
  }

  /**
   Logging in again with the same assertion, at any later time `t`, finds the
   row the first login stored: nothing is inserted, the table is unchanged,
   and the cookie carries a token for the same user issued at `t`. The cookie
   is the first one only if the clock reads the same.
   */
  lemma RepeatLoginReusesUser(params: Query, config: Config, db: Database, svc: Services, again: Database, t: nat)
    requires HandleCallback(params, config, db, svc).response.Found?
    requires again.users == HandleCallback(params, config, db, svc).users
    ensures var later := svc.(clock := t);
            var second := HandleCallback(params, config, again, later);
            && ClaimedSteamId(params).Some? && ClaimedSteamId(params).value in again.users
            && second.users == again.users
            && (forall e :: e in second.effects ==> !e.InsertUser?)
            && second.response == Found("/", SessionCookie(svc.sign(
                 SessionClaims(again.users[ClaimedSteamId(params).value], t), config.jwtSecret.value)))
            && (t == svc.clock ==> second.response == HandleCallback(params, config, db, svc).response)
  {
    var id := ClaimedSteamId(params).value;
    assert id in again.users;
    var later := svc.(clock := t);
    assert Verified(params, later) == Verified(params, svc);
    var second := AfterVerification(params, config, again, later);
    assert second.users == again.users;
    assert forall e :: e in second.effects ==> !e.InsertUser?;
  }
}

=== FILE: steam_login.dfy ===
/**
 The outbound half of "Sign in with Steam" (`GET /api/auth/steam`): the
 OpenID Authentication 2.0 `checkid_setup` request (section 9 of OpenID
 Authentication 2.0) that sends the browser to Steam's login page.
 */
module SteamLogin {
  import opened Options
  import opened UrlQuery
  import Strings

  const OpenIdNamespace := "http://specs.openid.net/auth/2.0"
  /** The URI that asks the provider to let the user choose an identifier (section 9.1). */
  const IdentifierSelect := "http://specs.openid.net/auth/2.0/identifier_select"
  const ProviderLogin := "https://steamcommunity.com/openid/login"
  const CallbackPath := "/api/auth/callback"

  /** An HTTP redirect to `endpoint + "?" + query`. */
  datatype Redirect = Redirect(status: int, endpoint: string, query: Query)

  ghost predicate IsPrefix(p: string, s: string) {
    |p| <= |s| && s[..|p|] == p
  }

  /**
   The realm check of section 9.2 of OpenID Authentication 2.0, for a realm
   without a wildcard: the return URL must lie under the realm.
   */
  ghost predicate ReturnToMatchesRealm(returnTo: string, realm: string) {
    IsPrefix(realm, returnTo)
  }

  /**
   A well-formed positive-assertion request of section 9.1 of OpenID
   Authentication 2.0 in mode `checkid_setup`, asking the provider to select
   the identifier: the 2.0 namespace, both `claimed_id` and `identity` set to
   identifier-select, a `return_to`, and a realm that the `return_to` matches.
   */
  ghost predicate IsIdentifierSelectSetup(q: Query) {
    && Get(q, "openid.ns") == Some(OpenIdNamespace)
    && Get(q, "openid.mode") == Some("checkid_setup")
    && Get(q, "openid.claimed_id") == Some(IdentifierSelect)
    && Get(q, "openid.identity") == Some(IdentifierSelect)
    && Get(q, "openid.return_to").Some?
    && Get(q, "openid.realm").Some?
    && ReturnToMatchesRealm(Get(q, "openid.return_to").value, Get(q, "openid.realm").value)
  }

  /**
   The redirect built for a request whose URL has the given origin. The origin
   is used verbatim, with no allow-list check, both as the realm and as the
   base of the return URL.
   */
  function BeginLogin(origin: string): (r: Redirect)
    ensures r.status == 302 && r.endpoint == ProviderLogin
    ensures IsIdentifierSelectSetup(r.query)
    ensures Get(r.query, "openid.realm") == Some(origin)
    ensures Get(r.query, "openid.return_to") == Some(origin + CallbackPath)
    ensures |r.query| == 6
  {
    var callbackUrl := origin + CallbackPath;
    var q := [
      Param("openid.ns", OpenIdNamespace),
      Param("openid.mode", "checkid_setup"),
      Param("openid.return_to", callbackUrl),
      Param("openid.realm", origin),
      Param("openid.identity", IdentifierSelect),
      Param("openid.claimed_id", IdentifierSelect)
    ];
    assert callbackUrl[..|origin|] == origin;
    GetFirst(q, "openid.ns", 0);
    GetFirst(q, "openid.mode", 1);
    GetFirst(q, "openid.return_to", 2);
    GetFirst(q, "openid.realm", 3);
    GetFirst(q, "openid.identity", 4);
    GetFirst(q, "openid.claimed_id", 5);
    Redirect(302, ProviderLogin, q)
  }
}

=== FILE: strings.dfy ===
/**
 The string operations of JavaScript that the modelled code relies on, over
 Dafny strings: substring search (`includes`), suffix test (`endsWith`),
 ASCII case folding (`toLowerCase` restricted to ASCII), whitespace trimming
 (`trim`) and the decimal rendering of a natural number (`toString`).
 */
module Strings {
  import opened Options

  /** `pat` occurs in `s` starting at index `i`. */
  ghost predicate OccursAt(s: string, pat: string, i: int) {
    0 <= i && i + |pat| <= |s| && s[i..i + |pat|] == pat
  }

  /** Index of the first occurrence of `pat` in `s` at or after `from` (JavaScript's `indexOf`). */
  function IndexOf(s: string, pat: string, from: nat): (r: Option<nat>)
    ensures r.Some? ==> from <= r.value && OccursAt(s, pat, r.value)
    ensures r.Some? ==> forall j :: from <= j < r.value ==> !OccursAt(s, pat, j)
    ensures r.None? ==> forall j :: from <= j ==> !OccursAt(s, pat, j)
    decreases |s| - from
  {
    if from + |pat| > |s| then None
    else if s[from..from + |pat|] == pat then Some(from)
    else IndexOf(s, pat, from + 1)
  }

  /** JavaScript's `s.includes(pat)`: `pat` occurs somewhere in `s`. */
  function Includes(s: string, pat: string): (b: bool)
    ensures b <==> exists i :: OccursAt(s, pat, i)
  {
    IndexOf(s, pat, 0).Some?
  }

  /** JavaScript's `s.endsWith(suffix)`. */
  predicate EndsWith(s: string, suffix: string) {
    |suffix| <= |s| && s[|s| - |suffix|..] == suffix
  }

  /** `EndsWith` holds exactly when `s` is some string followed by `suffix`. */
  lemma EndsWithIffAppend(s: string, suffix: string)
    ensures EndsWith(s, suffix) <==> exists p :: s == p + suffix
  {
    if EndsWith(s, suffix) {
      assert s == s[..|s| - |suffix|] + suffix;
    }
    if exists p :: s == p + suffix {
      var p :| s == p + suffix;
      assert s[|s| - |suffix|..] == suffix;
    }
  }

  predicate IsAsciiUpper(c: char) { 'A' <= c <= 'Z' }
  predicate IsAsciiLower(c: char) { 'a' <= c <= 'z' }
  predicate IsAsciiLetter(c: char) { IsAsciiUpper(c) || IsAsciiLower(c) }
  predicate IsDigit(c: char) { '0' <= c <= '9' }

  /** `toLowerCase` on one character, restricted to ASCII letters. */
  function AsciiLower(c: char): (r: char)
    ensures !IsAsciiUpper(r)
    ensures IsAsciiLetter(c) <==> IsAsciiLower(r)
    ensures !IsAsciiUpper(c) ==> r == c
  {
    if IsAsciiUpper(c) then (c as int + 32) as char else c
  }

  /** `toLowerCase` on a string, restricted to ASCII letters. */
  function Lower(s: string): (r: string)
    ensures |r| == |s|
    ensures forall i :: 0 <= i < |s| ==> r[i] == AsciiLower(s[i])
  {
    seq(|s|, i requires 0 <= i < |s| => AsciiLower(s[i]))
  }

  /** Lower-casing twice is lower-casing once. */
  lemma LowerIdempotent(s: string)
    ensures Lower(Lower(s)) == Lower(s)
  {
  }

  /**
   The characters JavaScript's `trim` removes: the WhiteSpace and
   LineTerminator code points of ECMAScript (section 12.2 and 12.3 of ECMA-262).
   */
  predicate IsJsWhitespace(c: char) {
    var n := c as int;
    n == 0x09 || n == 0x0A || n == 0x0B || n == 0x0C || n == 0x0D || n == 0x20
    || n == 0xA0 || n == 0x1680 || (0x2000 <= n <= 0x200A)
    || n == 0x2028 || n == 0x2029 || n == 0x202F || n == 0x205F
    || n == 0x3000 || n == 0xFEFF
  }

  ghost predicate AllWhitespace(s: string) {
    forall i :: 0 <= i < |s| ==> IsJsWhitespace(s[i])
  }

  /** Neither end of `s` is whitespace. */
  ghost predicate IsTrimmed(s: string) {
    s == [] || (!IsJsWhitespace(s[0]) && !IsJsWhitespace(s[|s| - 1]))
  }

  /** Drops the leading whitespace. */
  function TrimStart(s: string): (r: string)
    ensures |r| <= |s| && r == s[|s| - |r|..]
    ensures AllWhitespace(s[..|s| - |r|])
    ensures r == [] || !IsJsWhitespace(r[0])
  {
    if s != [] && IsJsWhitespace(s[0]) then TrimStart(s[1..]) else s
  }

  /** Drops the trailing whitespace. */
  function TrimEnd(s: string): (r: string)
    ensures |r| <= |s| && r == s[..|r|]
    ensures AllWhitespace(s[|r|..])
    ensures r == [] || !IsJsWhitespace(r[|r| - 1])
  {
    if s != [] && IsJsWhitespace(s[|s| - 1]) then TrimEnd(s[..|s| - 1]) else s
  }

  /** JavaScript's `s.trim()`: the middle of `s` between leading and trailing whitespace. */
  function Trim(s: string): (r: string)
    ensures IsTrimmed(r)
  {
    TrimEnd(TrimStart(s))
  }

  /** A string with no whitespace at either end is its own trim. */
  lemma TrimOfTrimmed(s: string)
    requires IsTrimmed(s)
    ensures Trim(s) == s
  {
    assert TrimStart(s) == s;
    assert TrimEnd(s) == s;
  }

  /** Trimming is idempotent. */
  lemma TrimIdempotent(s: string)
    ensures Trim(Trim(s)) == Trim(s)
  {
    TrimOfTrimmed(Trim(s));
  }

  /** Trimming yields nothing exactly when the string is all whitespace. */
  lemma {:induction false} TrimEmptyIffBlank(s: string)
    ensures Trim(s) == [] <==> AllWhitespace(s)
  {
    var t := TrimStart(s);
    if t == [] {
      assert s[..|s| - |t|] == s;
    } else {
      assert !IsJsWhitespace(s[|s| - |t|]);
      var u := TrimEnd(t);
      assert !AllWhitespace(t[|u|..]) ==> u != [];
    }
  }

  function DigitChar(d: nat): (c: char)
    requires d < 10
    ensures IsDigit(c)
  {
    ('0' as int + d) as char
  }

  function DigitValue(c: char): (d: nat)
    requires IsDigit(c)
    ensures d < 10 && DigitChar(d) == c
  {
    c as int - '0' as int
  }

  /** JavaScript's `n.toString()` for a natural number: its base-10 digits, most significant first. */
  function Decimal(n: nat): (r: string)
    ensures |r| >= 1
    ensures forall i :: 0 <= i < |r| ==> IsDigit(r[i])
    ensures |r| > 1 ==> r[0] != '0'
    decreases n
  {
    if n < 10 then [DigitChar(n)] else Decimal(n / 10) + [DigitChar(n % 10)]
  }

  /** The value of a string of decimal digits. */
  function ParseDecimal(s: string): nat
    requires forall i :: 0 <= i < |s| ==> IsDigit(s[i])
  {
    if s == [] then 0 else ParseDecimal(s[..|s| - 1]) * 10 + DigitValue(s[|s| - 1])
  }

  /** Rendering a number in decimal loses nothing: parsing it back gives the number. */
  lemma {:induction false} DecimalRoundTrip(n: nat)
    ensures ParseDecimal(Decimal(n)) == n
    decreases n
  {
    if n >= 10 {
      DecimalRoundTrip(n / 10);
      var r := Decimal(n);
      assert r[..|r| - 1] == Decimal(n / 10);
    }
  }

  /** Distinct numbers render as distinct strings. */
  lemma DecimalInjective(m: nat, n: nat)
    requires Decimal(m) == Decimal(n)
    ensures m == n
  {
    DecimalRoundTrip(m);
    DecimalRoundTrip(n);
  }

  // ---------------------------------------------------------------- split

  /**
   JavaScript's `s.split(sep)` for a one-character separator: the pieces
   between separators, empty ones included, so there is always one more
   piece than there are separators.
   */
  function Split(s: string, sep: char): (r: seq<string>)
    ensures |r| >= 1
    ensures forall k :: 0 <= k < |r| ==> sep !in r[k]
    decreases |s|
  {
    if s == [] then [""]
    else
      var rest := Split(s[1..], sep);
      if s[0] == sep then [""] + rest
      else
        assert sep !in [s[0]] + rest[0];
        [[s[0]] + rest[0]] + rest[1..]
  }

  /** JavaScript's array join: the pieces with the separator between each two. */
  function Join(pieces: seq<string>, sep: char): string
    requires |pieces| >= 1
    decreases |pieces|
  {
    if |pieces| == 1 then pieces[0] else pieces[0] + [sep] + Join(pieces[1..], sep)
  }

  /** Joining the pieces of a split with the same separator gives back the string. */
  lemma {:induction false} JoinSplit(s: string, sep: char)
    ensures Join(Split(s, sep), sep) == s
    decreases |s|
  {
    if s != [] {
      JoinSplit(s[1..], sep);
      var rest := Split(s[1..], sep);
      if s[0] == sep {
        assert Split(s, sep)[1..] == rest;
      } else {
        var r := Split(s, sep);
        assert r[0] == [s[0]] + rest[0];
        if |rest| > 1 {
          assert r[1..] == rest[1..];
        }
      }
    }
  }

  /** A string without the separator splits into itself alone. */
  lemma {:induction false} SplitWithoutSeparator(s: string, sep: char)
    requires sep !in s
    ensures Split(s, sep) == [s]
    decreases |s|
  {
    if s != [] {
      assert sep !in s[1..];
      SplitWithoutSeparator(s[1..], sep);
      assert s[0] != sep;
      assert [s[0]] + s[1..] == s;
    }
  }

  /** A leading piece without the separator splits off as the first piece. */
  lemma {:induction false} SplitAfterPiece(a: string, b: string, sep: char)
    requires sep !in a
    ensures Split(a + [sep] + b, sep) == [a] + Split(b, sep)
    decreases |a|
  {
    if a == [] {
      assert a + [sep] + b == [sep] + b;
      assert ([sep] + b)[1..] == b;
    } else {
      assert (a + [sep] + b)[0] == a[0];
      assert (a + [sep] + b)[1..] == a[1..] + [sep] + b;
      assert sep !in a[1..];
      SplitAfterPiece(a[1..], b, sep);
      assert [a[0]] + a[1..] == a;
    }
  }
}

=== FILE: tag_list.dfy ===
/**
 The tag editor shared by the theme manager and the upload form: Enter adds
 the trimmed input unless it is blank or already present, and the cross on a
 tag removes it.
 */
module TagList {
  import opened Strings
  import Seqs

  /** No value occurs twice. */
  ghost predicate Distinct(xs: seq<string>) {
    forall i, j :: 0 <= i < j < |xs| ==> xs[i] != xs[j]
  }

  /** The tags the editor can build: no duplicates, each trimmed and non-empty. */
  ghost predicate WellFormed(tags: seq<string>) {
    && Distinct(tags)
    && (forall i :: 0 <= i < |tags| ==> tags[i] != "" && IsTrimmed(tags[i]))
  }

  /** The tag list and the text box after a key press. */
  datatype Edit = Edit(tags: seq<string>, input: string)

  /**
   A key press in the tag box. Enter with a non-blank input appends the
   trimmed input when it is new and always clears the box; any other key, or a
   blank input, changes nothing.
   */
  function OnKey(tags: seq<string>, input: string, key: string): (r: Edit)
    ensures key != "Enter" || Trim(input) == "" ==> r == Edit(tags, input)
    ensures key == "Enter" && Trim(input) != "" ==>
              && r.input == ""
              && (Trim(input) in tags ==> r.tags == tags)
              && (Trim(input) !in tags ==> r.tags == tags + [Trim(input)])
    ensures WellFormed(tags) ==> WellFormed(r.tags)
  {
    if key == "Enter" && Trim(input) != "" then
      var tag := Trim(input);
      Edit(if tag in tags then tags else tags + [tag], "")
    else
      Edit(tags, input)
  }

  /** The list without every copy of the given tag, the rest in their order. */
  function Remove(tags: seq<string>, tag: string): (r: seq<string>)
    ensures tag !in r
    ensures forall t :: t in r <==> t in tags && t != tag
    ensures multiset(r) == multiset(tags)[tag := 0]
    ensures Seqs.IsSubsequence(r, tags)
    ensures Distinct(tags) ==> Distinct(r)
    ensures WellFormed(tags) ==> WellFormed(r)
  {
    var p := (t: string) => t != tag;
    Seqs.FilterIsSubsequence(tags, p);
    RemoveMultiset(tags, tag);
    SubsequenceKeepsDistinct(Seqs.Filter(tags, p), tags);
    SubsequenceMembers(Seqs.Filter(tags, p), tags);
    Seqs.Filter(tags, p)
  }

  lemma {:induction false} RemoveMultiset(tags: seq<string>, tag: string)
    ensures multiset(Seqs.Filter(tags, (t: string) => t != tag)) == multiset(tags)[tag := 0]
    decreases |tags|
  {
    if tags != [] {
      RemoveMultiset(tags[1..], tag);
      assert tags == [tags[0]] + tags[1..];
    }
  }

  /** A subsequence of a list without duplicates has none either. */
  lemma {:induction false} SubsequenceKeepsDistinct(a: seq<string>, b: seq<string>)
    requires Seqs.IsSubsequence(a, b)
    ensures Distinct(b) ==> Distinct(a)
    decreases |b|
  {
    if a != [] && b != [] && Distinct(b) {
      if a[0] == b[0] {
        SubsequenceKeepsDistinct(a[1..], b[1..]);
        SubsequenceMembers(a[1..], b[1..]);
        assert forall j :: 0 < j < |a| ==> a[j] in b[1..];
      } else {
        SubsequenceKeepsDistinct(a, b[1..]);
      }
    }
  }

  /** Every element of a subsequence is an element of the whole. */
  lemma {:induction false} SubsequenceMembers(a: seq<string>, b: seq<string>)
    requires Seqs.IsSubsequence(a, b)
    ensures forall i :: 0 <= i < |a| ==> a[i] in b
    decreases |b|
  {
    if a != [] && b != [] {
      if a[0] == b[0] {
        SubsequenceMembers(a[1..], b[1..]);
        assert forall i :: 1 <= i < |a| ==> a[i] == a[1..][i - 1];
      } else {
        SubsequenceMembers(a, b[1..]);
      }
    }
  }

  /** Appending a value the list lacks and then removing it restores the list. */
  lemma AppendThenRemove(xs: seq<string>, x: string)
    requires x !in xs
    ensures Remove(xs + [x], x) == xs
  {
    var p := (t: string) => t != x;
    Seqs.FilterAppend(xs, [x], p);
    Seqs.FilterKeepsAll(xs, p);
  }

  /** Adding a tag with Enter and then removing it restores a list that did not have it. */
  lemma AddThenRemove(tags: seq<string>, input: string)
    requires Trim(input) != "" && Trim(input) !in tags
    ensures Remove(OnKey(tags, input, "Enter").tags, Trim(input)) == tags
  {
    AppendThenRemove(tags, Trim(input));
  }
}

=== FILE: theme_manager.dfy ===
/**
 The administrator's theme manager: the colour swatches and tag editor of the
 "new theme" form, the title/game search over the theme list, and the state
 change when the form is submitted.
 */
module ThemeManager {
  import opened Options
  import opened Strings
  import Seqs
  import TagList
  import opened Files

  datatype ThemeType = Static | Animated
  datatype ThemeStatus = Active | Draft

  /** A row of the theme list; `id` is a JavaScript number. */
  datatype Theme = Theme(id: real, title: string, game: string, price: real,
                         kind: ThemeType, status: ThemeStatus, preview: string)

  /** The fields of the "new theme" form; the price is `Number` of the number input's text. */
  datatype Form = Form(title: string, game: string, price: real, link: string, kind: ThemeType,
                       rarity: string, colors: seq<string>, tags: seq<string>)

  /** The whole state of the manager that the modelled handlers touch. */
  datatype State = State(themes: seq<Theme>, modalOpen: bool, form: Form, tagInput: string,
                         previewFile: Option<File>, previewUrl: Option<string>)

  const DefaultPreview := "https://picsum.photos/seed/new/300/200"

  /** The form as it is first shown and after each submission. */
  const EmptyForm := Form("", "", 0.0, "", Static, "Common", [], [])

  const InitialThemes := [
    Theme(1.0, "Neon Genesis", "Cyberpunk 2077", 2000.0, Animated, Active, "https://picsum.photos/seed/theme1/300/200"),
    Theme(2.0, "Tranquil Zen", "Sekiro", 500.0, Static, Active, "https://picsum.photos/seed/theme2/300/200"),
    Theme(3.0, "Abyssal Depths", "Subnautica", 2500.0, Animated, Draft, "https://picsum.photos/seed/theme3/300/200")
  ]

  // ---------------------------------------------------------------- colours

  /**
   Clicking a swatch: a selected colour is removed (every occurrence of it),
   an unselected one is appended. There is no limit on how many colours can be
   selected, although the form's label asks for up to three.
   */
  function ToggleColor(colors: seq<string>, hex: string): (r: seq<string>)
    ensures hex in r <==> hex !in colors
    ensures hex in colors ==> forall c :: c in r <==> c in colors && c != hex
    ensures hex in colors ==> multiset(r) == multiset(colors)[hex := 0]
    ensures hex in colors ==> Seqs.IsSubsequence(r, colors)
    ensures hex !in colors ==> |r| == |colors| + 1 && r[..|colors|] == colors && r[|colors|] == hex
    ensures TagList.Distinct(colors) ==> TagList.Distinct(r)
  {
    if hex in colors then
      TagList.Remove(colors, hex)
    else
      colors + [hex]
  }

  /** Selecting a colour and clicking it again restores the selection, whatever its size. */
  lemma ToggleTwiceRestores(colors: seq<string>, hex: string)
    requires hex !in colors
    ensures ToggleColor(ToggleColor(colors, hex), hex) == colors
  {
    TagList.AppendThenRemove(colors, hex);
  }

  // ---------------------------------------------------------------- tags

  /** A key press in the tag box; only the tags and the box change. */
  function TagKeyDown(s: State, key: string): (r: State)
    ensures r.themes == s.themes && r.modalOpen == s.modalOpen
    ensures r.previewFile == s.previewFile && r.previewUrl == s.previewUrl
    ensures r.form == s.form.(tags := r.form.tags)
    ensures TagList.OnKey(s.form.tags, s.tagInput, key) == TagList.Edit(r.form.tags, r.tagInput)
  {
    var e := TagList.OnKey(s.form.tags, s.tagInput, key);
    s.(form := s.form.(tags := e.tags), tagInput := e.input)
  }

  /** The cross on a tag; only the tag list changes. */
  function RemoveTag(s: State, tag: string): (r: State)
    ensures r == s.(form := s.form.(tags := r.form.tags))
    ensures r.form.tags == TagList.Remove(s.form.tags, tag)
  {
    s.(form := s.form.(tags := TagList.Remove(s.form.tags, tag)))
  }

  // ---------------------------------------------------------------- search

  /** The search box keeps a theme whose title or game contains the query, ignoring ASCII case. */
  predicate MatchesSearch(t: Theme, query: string) {
    Includes(Lower(t.title), Lower(query)) || Includes(Lower(t.game), Lower(query))
  }

  function FilteredThemes(themes: seq<Theme>, query: string): (r: seq<Theme>)
    ensures forall i :: 0 <= i < |r| ==> r[i] in themes && MatchesSearch(r[i], query)
    ensures forall i :: 0 <= i < |themes| && MatchesSearch(themes[i], query) ==> themes[i] in r
    ensures Seqs.IsSubsequence(r, themes)
    // With the subsequence clause, this keeps every copy of a repeated theme.
    ensures |r| == Seqs.Count(themes, t => MatchesSearch(t, query))
  {
    Seqs.FilterIsSubsequence(themes, t => MatchesSearch(t, query));
    Seqs.FilterLength(themes, t => MatchesSearch(t, query));
    Seqs.Filter(themes, t => MatchesSearch(t, query))
  }

  /** An empty search shows every theme, in order. */
  lemma EmptySearchKeepsAll(themes: seq<Theme>)
    ensures FilteredThemes(themes, "") == themes
  {
    forall i | 0 <= i < |themes|
      ensures MatchesSearch(themes[i], "")
    {
      assert OccursAt(Lower(themes[i].title), "", 0);
    }
    Seqs.FilterKeepsAll(themes, t => MatchesSearch(t, ""));
  }

  /** The search ignores the ASCII case of the query. */
  lemma SearchIgnoresQueryCase(themes: seq<Theme>, query: string)
    ensures FilteredThemes(themes, Lower(query)) == FilteredThemes(themes, query)
  {
    LowerIdempotent(query);
    Seqs.FilterCongruent(themes, t => MatchesSearch(t, Lower(query)), t => MatchesSearch(t, query));
  }

  // ---------------------------------------------------------------- submit

  /** The theme a submission creates; `id` stands for the random number the form draws. */
  function NewTheme(form: Form, previewUrl: Option<string>, id: real): (t: Theme)
    ensures t.title == form.title && t.game == form.game && t.price == form.price && t.kind == form.kind
    ensures t.status == Active
    ensures t.preview == DefaultPreview <==> previewUrl.None? || previewUrl.value in {"", DefaultPreview}
  {
    var preview := if previewUrl.Some? && previewUrl.value != "" then previewUrl.value else DefaultPreview;
    Theme(id, form.title, form.game, form.price, form.kind, Active, preview)
  }

  /**
   Submitting the form puts one new Active theme at the head of the list,
   closes the modal and resets the form and the preview. The text still in
   the tag box is not cleared.
   */
  function Submit(s: State, id: real): (r: State)
    ensures |r.themes| == |s.themes| + 1 && r.themes[1..] == s.themes
    ensures r.themes[0] == NewTheme(s.form, s.previewUrl, id)
    ensures !r.modalOpen && r.form == EmptyForm
    ensures r.previewFile.None? && r.previewUrl.None?
    ensures r.tagInput == s.tagInput
  {
    State([NewTheme(s.form, s.previewUrl, id)] + s.themes, false, EmptyForm, s.tagInput, None, None)
  }

  /** After a submission the search shows the new theme first, when it matches, followed by what it showed before. */
  lemma SubmitThenSearch(s: State, id: real, query: string)
    ensures var t := NewTheme(s.form, s.previewUrl, id);
            FilteredThemes(Submit(s, id).themes, query)
              == (if MatchesSearch(t, query) then [t] else []) + FilteredThemes(s.themes, query)
  {
    var t := NewTheme(s.form, s.previewUrl, id);
    Seqs.FilterAppend([t], s.themes, t => MatchesSearch(t, query));
  }
}

=== FILE: themes_page.dfy ===
/**
 The public Themes page: the All / Animated / Static category switch over the
 theme catalogue and the message shown when a category has no themes.
 */
module ThemesPage {
  import Seqs

  /** A catalogue entry; `kind` is the free-form type string of the data. */
  datatype Theme = Theme(id: int, title: string, creator: string, price: real, kind: string)

  const Catalogue := [
    Theme(1, "Neon Genesis", "@CyberPunk", 2000.0, "animated"),
    Theme(2, "Tranquil Zen", "@NatureVibes", 500.0, "static"),
    Theme(3, "Abyssal Depths", "@DeepSea", 2500.0, "animated"),
    Theme(4, "Vaporwave Dreams", "@Aesthetic", 1500.0, "animated"),
    Theme(5, "Crimson Samurai", "@RoninArt", 800.0, "static"),
    Theme(6, "Galactic Core", "@SpaceExplorer", 3000.0, "animated")
  ]

  datatype Category = All | AnimatedOnly | StaticOnly {
    /** The type string a category selects; `All` selects every theme. */
    function Key(): string {
      match this
      case All => "all"
      case AnimatedOnly => "animated"
      case StaticOnly => "static"
    }
  }

  predicate InCategory(t: Theme, c: Category) {
    c == All || t.kind == c.Key()
  }

  /** The themes shown for a category, in catalogue order. */
  function Filtered(themes: seq<Theme>, c: Category): (r: seq<Theme>)
    ensures c == All ==> r == themes
    ensures c != All ==> forall i :: 0 <= i < |r| ==> r[i] in themes && r[i].kind == c.Key()
    ensures c != All ==> forall i :: 0 <= i < |themes| && themes[i].kind == c.Key() ==> themes[i] in r
    ensures Seqs.IsSubsequence(r, themes)
    // With the subsequence clause, this keeps every copy of a repeated theme.
    ensures |r| == Seqs.Count(themes, (t: Theme) => InCategory(t, c))
  {
    var p := (t: Theme) => InCategory(t, c);
    Seqs.FilterIsSubsequence(themes, p);
    Seqs.FilterLength(themes, p);
    if c == All then
      Seqs.FilterKeepsAll(themes, p);
      Seqs.Filter(themes, p)
    else
      Seqs.Filter(themes, p)
  }

  /** "No themes found in this category." is shown exactly when no theme has the category's type. */
  function ShowsEmptyMessage(themes: seq<Theme>, c: Category): (b: bool)
    ensures b <==> |Filtered(themes, c)| == 0
    ensures b <==> forall i :: 0 <= i < |themes| ==> !InCategory(themes[i], c)
  {
    Seqs.FilterLength(themes, (t: Theme) => InCategory(t, c));
    |Filtered(themes, c)| == 0
  }

  /**
   When every theme is typed animated or static, the Animated and Static
   views together show each theme of the All view exactly once.
   */
  lemma AnimatedAndStaticPartitionAll(themes: seq<Theme>)
    requires forall i :: 0 <= i < |themes| ==> themes[i].kind in {"animated", "static"}
    ensures multiset(Filtered(themes, AnimatedOnly)) + multiset(Filtered(themes, StaticOnly))
            == multiset(Filtered(themes, All))
    ensures |Filtered(themes, AnimatedOnly)| + |Filtered(themes, StaticOnly)| == |themes|
  {
    var isAnimated := (t: Theme) => InCategory(t, AnimatedOnly);
    var isStatic := (t: Theme) => InCategory(t, StaticOnly);
    var notAnimated := (t: Theme) => !InCategory(t, AnimatedOnly);
    Seqs.FilterCongruent(themes, isStatic, notAnimated);
    Seqs.FilterPartition(themes, isAnimated, notAnimated);
  }

  /** Every theme of the shipped catalogue is typed animated or static. */
  lemma CatalogueKinds()
    ensures forall i :: 0 <= i < |Catalogue| ==> Catalogue[i].kind in {"animated", "static"}
  {
    var kinds := ["animated", "static", "animated", "animated", "static", "animated"];
    assert forall i :: 0 <= i < |Catalogue| ==> Catalogue[i].kind == kinds[i];
  }

  /** The shipped catalogue is split by the two views. */
  lemma CataloguePartition()
    ensures multiset(Filtered(Catalogue, AnimatedOnly)) + multiset(Filtered(Catalogue, StaticOnly))
            == multiset(Catalogue)
  {
    CatalogueKinds();
    AnimatedAndStaticPartitionAll(Catalogue);
  }

  /** No category of the shipped catalogue shows the empty message. */
  lemma CatalogueNeverEmpty(c: Category)
    ensures !ShowsEmptyMessage(Catalogue, c)
  {
    var shown := if c == StaticOnly then Catalogue[1] else Catalogue[0];
    assert InCategory(shown, c);
  }
}

=== FILE: upload_page.dfy ===
/**
 The artwork upload form: the .webm preview gate, the source file picker, the
 tag editor, and the price and form validity flags that enable the submit
 button.
 */
module UploadPage {
  import opened Options
  import opened Files
  import TagList

  const WebmType := "video/webm"

  /** The minimum price of a paid artwork. */
  const MinPrice: real := 2.5

  /**
   The form's state. `price` is the price text as `parseFloat` reads it:
   `None` when the text does not start with a number.
   */
  datatype State = State(
    previewFile: Option<File>, previewUrl: Option<string>, sourceFile: Option<File>,
    title: string, description: string, tags: seq<string>, currentTag: string,
    selectedColor: string, isPaid: bool, price: Option<real>, isAI: bool)

  const Initial := State(None, None, None, "", "", [], "", "#22d3ee", false, None, false)

  /** The preview fields agree: both are set, to a WebM file, or both are clear. */
  ghost predicate PreviewConsistent(s: State) {
    && (s.previewFile.Some? <==> s.previewUrl.Some?)
    && (s.previewFile.Some? ==> s.previewFile.value.mimeType == WebmType)
  }

  /**
   A file dropped on, or chosen for, the preview zone; `url` is the object URL
   the browser would create for it. Only a file whose type is exactly
   `video/webm` is taken; anything else leaves the form as it was.
   */
  function ChoosePreview(s: State, file: Option<File>, url: string): (r: State)
    ensures file.Some? && file.value.mimeType == WebmType ==>
              r == s.(previewFile := file, previewUrl := Some(url))
    ensures file.None? || file.value.mimeType != WebmType ==> r == s
    ensures PreviewConsistent(s) ==> PreviewConsistent(r)
  {
    if file.Some? && file.value.mimeType == WebmType then
      s.(previewFile := file, previewUrl := Some(url))
    else
      s
  }

  /** The cross on the preview clears both the file and its URL. */
  function ClearPreview(s: State): (r: State)
    ensures r.previewFile.None? && r.previewUrl.None?
    ensures r.(previewFile := s.previewFile, previewUrl := s.previewUrl) == s
    ensures PreviewConsistent(r)
  {
    s.(previewFile := None, previewUrl := None)
  }

  /** The source picker takes any chosen file; cancelling the picker changes nothing. */
  function ChooseSource(s: State, file: Option<File>): (r: State)
    ensures file.Some? ==> r == s.(sourceFile := file)
    ensures file.None? ==> r == s
  {
    if file.Some? then s.(sourceFile := file) else s
  }

  /** A key press in the tag box (the same rule as the theme manager's). */
  function AddTag(s: State, key: string): (r: State)
    ensures r == s.(tags := r.tags, currentTag := r.currentTag)
    ensures TagList.OnKey(s.tags, s.currentTag, key) == TagList.Edit(r.tags, r.currentTag)
    ensures TagList.WellFormed(s.tags) ==> TagList.WellFormed(r.tags)
  {
    var e := TagList.OnKey(s.tags, s.currentTag, key);
    s.(tags := e.tags, currentTag := e.input)
  }

  /** The cross on a tag chip removes that tag; the others keep their order. */
  function RemoveTag(s: State, tag: string): (r: State)
    ensures r == s.(tags := r.tags)
    ensures r.tags == TagList.Remove(s.tags, tag)
    ensures tag !in r.tags
    ensures forall t :: t in r.tags <==> t in s.tags && t != tag
  {
    s.(tags := TagList.Remove(s.tags, tag))
  }

  /**
   A free artwork needs no price; a paid one needs a price text that parses
   to at least 2.50 (an unparsable text compares as NaN, so it is invalid).
   */
  predicate IsPriceValid(s: State) {
    !s.isPaid || (s.price.Some? && s.price.value >= MinPrice)
  }

  /** Whatever the price text, a free artwork's price is valid; a paid one's is valid exactly from 2.50 up. */
  lemma PriceThreshold(s: State, p: real)
    ensures IsPriceValid(s.(isPaid := false))
    ensures !IsPriceValid(s.(isPaid := true, price := None))
    ensures IsPriceValid(s.(isPaid := true, price := Some(p))) <==> p >= MinPrice
  {
  }

  /**
   The submit button is enabled with a title, both files and a valid price.
   An enabled form with consistent preview fields has a WebM preview to show,
   and a paid one carries a price of at least 2.50.
   */
  function IsFormValid(s: State): (b: bool)
    ensures b ==> s.previewFile.Some? && s.sourceFile.Some? && |s.title| > 0
    ensures b && PreviewConsistent(s) ==> s.previewUrl.Some? && s.previewFile.value.mimeType == WebmType
    ensures b && s.isPaid ==> s.price.Some? && s.price.value >= MinPrice
  {
    s.title != "" && s.previewFile.Some? && s.sourceFile.Some? && IsPriceValid(s)
  }

  /** The description, tags, colour and AI flag never affect whether the form can be submitted. */
  lemma ValidityIgnoresDetails(s: State, description: string, tags: seq<string>, tag: string,
                               color: string, isAI: bool)
    ensures IsFormValid(s.(description := description, tags := tags, currentTag := tag,
                           selectedColor := color, isAI := isAI)) == IsFormValid(s)
  {
  }

  /** The freshly opened form cannot be submitted. */
  lemma InitialFormInvalid()
    ensures !IsFormValid(Initial) && PreviewConsistent(Initial)
  {
  }

  /**
   The handlers can enable the button: with a title, choosing a WebM preview
   and any source file makes a free form valid, and a paid one too once its
   price is at least 2.50.
   */
  lemma FillingInEnablesSubmit(s: State, preview: File, url: string, source: File)
    requires s.title != "" && preview.mimeType == WebmType
    requires !s.isPaid || (s.price.Some? && s.price.value >= MinPrice)
    ensures var filled := ChooseSource(ChoosePreview(s, Some(preview), url), Some(source));
            IsFormValid(filled) && PreviewConsistent(filled)
  {
  }

  /** A valid form stays valid when a paid price is raised. */
  lemma RaisingPriceKeepsValid(s: State, higher: real)
    requires IsFormValid(s) && s.isPaid && s.price.Some? && s.price.value <= higher
    ensures IsFormValid(s.(price := Some(higher)))
  {
  }
}

=== FILE: url_query.dfy ===
/**
 A URL query as JavaScript's `URLSearchParams` holds it: an ordered list of
 name/value pairs in which a name may repeat. Percent-encoding is not
 modelled; the pairs are kept decoded.
 */
module UrlQuery {
  import opened Options
  import Seqs

  datatype Param = Param(name: string, value: string)

  type Query = seq<Param>

  /** `params.has(name)`. */
  predicate Has(q: Query, name: string) {
    exists i :: 0 <= i < |q| && q[i].name == name
  }

  /** `params.get(name)`: the value of the first pair with that name, if any. */
  function Get(q: Query, name: string): Option<string>
  {
    if q == [] then None
    else if q[0].name == name then Some(q[0].value)
    else Get(q[1..], name)
  }

  /** `get` finds nothing exactly when no pair has the name. */
  lemma {:induction false} GetNoneIffAbsent(q: Query, name: string)
    ensures Get(q, name).None? <==> !Has(q, name)
  {
    if q != [] {
      GetNoneIffAbsent(q[1..], name);
      assert forall i :: 1 <= i < |q| ==> q[i] == q[1..][i - 1];
      if Has(q[1..], name) {
        var i :| 0 <= i < |q[1..]| && q[1..][i].name == name;
        assert q[i + 1].name == name;
      }
    }
  }

  /** `get` finds the first pair carrying the name, wherever it stands. */
  lemma {:induction false} GetFirst(q: Query, name: string, i: nat)
    requires i < |q| && q[i].name == name
    requires forall j :: 0 <= j < i ==> q[j].name != name
    ensures Get(q, name) == Some(q[i].value)
    decreases i
  {
    if i > 0 {
      GetFirst(q[1..], name, i - 1);
    }
  }

  /** The pairs whose name is not `name`, in their original order. */
  function Without(q: Query, name: string): Query {
    Seqs.Filter(q, (p: Param) => p.name != name)
  }

  /** The number of pairs named `name`. */
  function Occurrences(q: Query, name: string): nat {
    Seqs.Count(q, (p: Param) => p.name == name)
  }

  /**
   `params.set(name, value)`: when `name` is present, the first pair with that
   name takes the new value in place and every later pair with that name is
   removed; otherwise the pair is appended at the end.
   */
  function Set(q: Query, name: string, value: string): (r: Query)
    decreases |q|
  {
    if q == [] then [Param(name, value)]
    else if q[0].name == name then [Param(name, value)] + Without(q[1..], name)
    else [q[0]] + Set(q[1..], name, value)
  }

  /** `set` leaves every pair with another name where it was. */
  lemma {:induction false} SetKeepsOthers(q: Query, name: string, value: string)
    ensures Without(Set(q, name, value), name) == Without(q, name)
    decreases |q|
  {
    var p := (x: Param) => x.name != name;
    if q == [] {
    } else if q[0].name == name {
      var rest := Without(q[1..], name);
      Seqs.FilterKeepsAll(rest, p);
      assert Set(q, name, value)[1..] == rest;
    } else {
      SetKeepsOthers(q[1..], name, value);
      assert Set(q, name, value)[1..] == Set(q[1..], name, value);
    }
  }

  /** After `set`, the name occurs exactly once, with the new value. */
  lemma {:induction false} SetLeavesOne(q: Query, name: string, value: string)
    ensures Occurrences(Set(q, name, value), name) == 1
    ensures Get(Set(q, name, value), name) == Some(value)
    decreases |q|
  {
    var p := (x: Param) => x.name == name;
    if q == [] {
    } else if q[0].name == name {
      var rest := Without(q[1..], name);
      assert forall i :: 0 <= i < |rest| ==> !p(rest[i]);
      assert Set(q, name, value)[1..] == rest;
    } else {
      SetLeavesOne(q[1..], name, value);
      assert Set(q, name, value)[1..] == Set(q[1..], name, value);
    }
  }
}
